=== FILE: README.md ===
# web-task-manager core, modelled in Dafny

This project models the service layer of a small task-manager API: the task service, the user service and the auth service, together with the persisted records and the request/response schemas those services use. It also proves properties of that model.

**Records.** The two tables are `users` and `tasks`. Each is modelled as its rows in scan order (`Models.Store`), so every query the services issue is an exact sequence operation (`Rows` module):
- `.filter(p).first()` is `FindFirst`;
- `.filter(p).all()` is `Where`;
- `.offset(k).limit(n).all()` is `OffsetLimit`.

The table constraints are predicates. Primary keys, the unique username and the owner foreign key make up `Models.Valid`, and a lemma per service operation shows that the operation keeps it (updating a user needs a no-collision hypothesis; see "Left out"). The declared VARCHAR lengths are `Models.FitsColumns`. Nothing enforces them, and only `TaskService.CreateTaskFitsColumns` relates them to an operation.

**Tasks.** Every task read, update and delete filters on the task id *and* the caller's id. So a task owned by someone else answers exactly as a missing one does.

**Users.** Registration refuses a username already present and stores only the password hash. Updates are partial and re-hash a given password. Deleting a user cascades to the user's tasks.

**Auth.** `create_access_token` signs the given claims with an `exp` claim added. `get_current_user` sorts token decoding into three outcomes: "Token has expired", "Could not validate credentials", and the user lookup.

**Third-party code as parameters.** Password hashing and the JWT codec are passed in as parameters:
- `Passwords.Hasher`, whose law is `Passwords.Sound`;
- `Tokens.Codec`, whose law is `Tokens.Lawful`.

The lemmas that depend on these laws take them as hypotheses. The clock is an integer `now`, in seconds. The database sequences are a fresh-id argument (`newId`) that no existing row carries.

**Errors.** Each service error keeps its HTTP `detail` text and its kind (`Outcomes.Failure`). The database errors no service catches are modelled too, except the VARCHAR-length and UNIQUE(username) errors listed under "Left out". Each leaves the store as it was:
- a commit that writes NULL into a NOT NULL column fails with `NullColumn`;
- a task whose owner id names no user fails the foreign key with `NoSuchOwner`;
- a negative OFFSET or LIMIT fails with `NegativeWindow`;
- a status string that is not a label of the `taskstatus` type fails with `NotAnEnumLabel`.

**Two behaviours of the code worth spelling out:**
- A zero `expires_delta` is falsy in `if expires_delta:`. The token then gets the default 30 minutes; it is not born expired (`Tokens.ZeroDeltaMeansDefault`).
- The status filter of `get_user_tasks` compares the database column with the given string. That column stores the enum member *names* (`NEW`, `IN_PROGRESS`, `COMPLETED`, per the migration's `taskstatus` type). The schema spellings (`New`, `In Progress`, `Completed`) are the member *values*. So a filter by a member's name lists that status (`TaskService.StatusFilterByLabel`). A filter by its value is refused by the database as an invalid enum literal (`TaskService.StatusFilterByValueFails`).

## Model

| member | source | states |
|---|---|---|
| Models.StatusFromValue | app/enums.py:4-7 | the status named by a value is the member with that value, and a string no member has as its value names none |
| Models.StatusFromLabel | alembic/versions/94c0e21f421a_create_database.py:42-44 | a string is admitted by the `taskstatus` type exactly when it is one member's name, and then names that member |
| Models.StatusSpellings | app/enums.py:4-7 | values and database labels are each injective over the three members, a value is never a label, and reading a member's value or label gives the member back |
| Models.EmptyIsValid | app/models.py:16-57 | the empty database satisfies the key, username, owner and column-length constraints |
| Rows.FindFirst | app/services/tasks.py:8-12 | `.filter(p).first()` yields the first row satisfying the filter, or none exactly when no row does |
| Rows.Where | app/services/tasks.py:28-33 | `.filter(p).all()` yields every row satisfying the filter, each as many times as stored, and nothing else |
| Rows.WhereWhere | app/services/tasks.py:28-31 | two chained filters select, in table order, what one filter on both conditions selects |
| Rows.WhereKeepsDistinct | app/models.py:41 | a filtered table keeps its primary keys distinct |
| Rows.OffsetLimit | app/services/tasks.py:23 | `.offset(k).limit(n)` is the contiguous slice starting at row k, of length n or what remains |
| Rows.PagesConcatenate | app/services/tasks.py:22-24 | over one fixed row sequence, two consecutive offset/limit windows together are the window of their combined length |
| Rows.PageOfRow | app/services/tasks.py:22-24 | over one fixed row sequence, each row appears on the page numbered by its index divided by the page size |
| Rows.RemoveAt | app/services/tasks.py:72-73 | deleting a row removes exactly one copy of it and keeps every other row in order |
| Rows.RemoveAtMembers | app/services/tasks.py:72-73 | the rows surviving a delete are exactly those at the other positions |
| Rows.RemoveAtKeepsDistinct | app/models.py:19 | deleting a row keeps primary keys distinct |
| Rows.UpdateAtKeepsDistinct | app/models.py:22-24 | replacing a row by one whose key no other row holds keeps the key unique |
| Payloads.RequiredStr | app/schemas/tasks.py:6 | a required string field is accepted exactly when present as a string, and is reported missing or mistyped otherwise |
| Payloads.RequiredStrMin | app/schemas/users.py:14-18 | a required password is accepted exactly when it is a string of at least the minimum length, and is refused as too short otherwise |
| Payloads.OptionalStr | app/schemas/tasks.py:7 | an optional string with default None is accepted exactly when absent, null or a string; it reads as None when absent or null and as the string given otherwise; anything else is refused as not a string |
| Payloads.NullableStr | app/schemas/users.py:7 | a nullable field without a default is accepted exactly when present as null or a string, and carries what was given; absent is reported missing, anything else as not a string |
| Payloads.PatchStr | app/schemas/tasks.py:23-24 | an optional update field is unset exactly when absent; it is accepted exactly when absent, null or a string, and then carries the given value or null; anything else is refused as not a string |
| Payloads.PatchStrMin | app/schemas/users.py:29-33 | an optional password update is unset exactly when absent; it is accepted exactly when absent, null or a string of at least six characters, carrying what was given; a shorter string is refused as too short and anything else as not a string |
| Payloads.StatusValue | app/schemas/tasks.py:8 | a status field is accepted exactly when it is one of the three member values |
| Payloads.StatusOr | app/schemas/tasks.py:8 | a status with a default is accepted exactly when absent or one of the member values; absent gives the default, present gives the member of that value, anything else is refused as not a status |
| Payloads.RequiredStatus | app/schemas/tasks.py:31 | a required status is accepted exactly when present as a member value, and gives that member; absent is reported missing, anything else as not a status |
| Payloads.PatchStatus | app/schemas/tasks.py:25 | an optional status update is unset when absent and null when null; it is accepted exactly when absent, null or a member value, and a member read is the one with the value given |
| TaskSchemas.ParseTaskCreate | app/schemas/tasks.py:5-14 | accepted exactly when the title is a string, a present description is null or a string, and a present status is a member value; a missing description is None, a missing status NEW, and every present field is the one given |
| TaskSchemas.TaskCreateRoundTrip | app/schemas/tasks.py:5-14 | dumping a task creation and reading it back gives it unchanged |
| TaskSchemas.TaskCreateDefaults | app/schemas/tasks.py:7-8 | a payload holding only a title gets no description and status NEW |
| TaskSchemas.TaskCreateIgnoresOtherKeys | app/schemas/tasks.py:5-14 | keys the schema does not declare, `user_id` among them, change nothing |
| TaskSchemas.ParseTaskUpdate | app/schemas/tasks.py:22-27 | accepted exactly when each present field is null or a string (a member value for the status); every field is unset exactly when absent, and a present one carries the value given, null included |
| TaskSchemas.TaskUpdateRoundTrip | app/schemas/tasks.py:22-27 | dumping an update with `exclude_unset` and reading it back gives it unchanged |
| TaskSchemas.EmptyBodyIsNoChanges | app/schemas/tasks.py:22-25 | an empty payload is the update that sets nothing |
| TaskSchemas.TaskReadKeepsRow | app/schemas/tasks.py:17-19 | the task response carries id, owner, title, description and status, and the row can be recovered from it |
| TaskSchemas.ParseTaskStatusUpdate | app/schemas/tasks.py:30-31 | a status update is accepted exactly when it carries one of the three member values, and a missing status is refused |
| UserSchemas.ParseUserCreate | app/schemas/users.py:5-18 | accepted exactly when first name, username and password are strings, the password has at least six characters, and last name is present as null or a string; every field carries the value given |
| UserSchemas.UserCreateRoundTrip | app/schemas/users.py:13-18 | a registration with a long-enough password dumps and reads back unchanged |
| UserSchemas.ShortPasswordRefused | app/schemas/users.py:14-18 | a password shorter than six characters is refused with the minimum-length error |
| UserSchemas.ParseUserUpdate | app/schemas/users.py:25-35 | accepted exactly when first name, last name and username are present as null or strings and a present password is null or a string of at least six characters; every field carries the value given, and the password alone is unset when absent |
| UserSchemas.UserUpdateRoundTrip | app/schemas/users.py:25-35 | the schema accepts exactly the admissible updates, and gives back the one dumped |
| UserSchemas.UserReadHidesPassword | app/schemas/users.py:21-22 | the user response carries id and the three names, and rows differing only in password read the same |
| UserSchemas.ParseUserLogin | app/schemas/users.py:38-40 | login is accepted exactly when both username and password are strings |
| AuthSchemas.ParseUserCreate | app/schemas/auth.py:4-17 | accepted exactly when first name, username and a password of at least six characters are strings and a present last name is null or a string; a missing last name is None |
| AuthSchemas.UserCreateSchemasAgree | app/schemas/auth.py:4-9 | the two registration schemas agree on every payload that includes a last name, and only the users schema refuses one without it |
| AuthSchemas.ShortPasswordRefused | app/schemas/auth.py:12-17 | registration refuses a password shorter than six characters with the minimum-length error |
| AuthSchemas.ParseToken | app/schemas/auth.py:24-26 | a token response is accepted exactly when it has a string access token and a string token type |
| AuthSchemas.TokenRoundTrip | app/schemas/auth.py:24-26 | a token response dumps and reads back unchanged |
| TaskService.GetTaskById | app/services/tasks.py:7-19 | succeeds exactly when a row has that id and the caller as owner, and returns that row; otherwise "Task not found" |
| TaskService.VisibleFound | app/services/tasks.py:8-12 | the id-and-owner filter finds a row exactly when such a row exists |
| TaskService.GetTasks | app/services/tasks.py:22-24 | an offset or limit outside the 64-bit `bigint` range is refused first, then a negative offset, then a negative limit; otherwise returns the slice of all tasks starting at `skip`, at most `limit` long, whoever owns them |
| TaskService.TaskPagesConcatenate | app/services/tasks.py:22-24 | over the model's one fixed scan order and for windows within the `bigint` range, the page at `skip` followed by the next page is the page spanning both |
| TaskService.GetUserTasks | app/services/tasks.py:27-34 | refused exactly when the status is a non-empty string that is no label; otherwise returns each of the caller's tasks that the status argument keeps, as often as stored, and nothing else |
| TaskService.UserTasksComplete | app/services/tasks.py:27-34 | for a status argument the database accepts, a task is listed exactly when it is stored, owned by the caller and kept by the status argument |
| TaskService.NoStatusFilter | app/services/tasks.py:30 | None and the empty string both list all the caller's tasks in table order |
| TaskService.StatusFilterByLabel | app/services/tasks.py:30-33 | filtering by a member's stored label lists the caller's tasks in that status, in table order |
| TaskService.StatusFilterByValueFails | app/services/tasks.py:30-33 | filtering by a member's schema value is refused as an invalid enum literal, because the column type admits only labels |
| TaskService.UserTasksDisjoint | app/services/tasks.py:28 | two different callers' successful listings never share a task |
| TaskService.CreateTask | app/services/tasks.py:37-42 | refused by the foreign key exactly when no user holds the owner id; otherwise appends exactly one task with the given fields and that owner, and changes nothing else |
| TaskService.CreateThenGet | app/services/tasks.py:37-42 | the created task is what its owner reads back, and no one else can read it |
| TaskService.CreateTaskPreservesValid | app/services/tasks.py:37-42 | every successful create keeps keys unique and owners existing |
| TaskService.CreateTaskFitsColumns | app/models.py:42 | the created row fits its column lengths exactly when the title has at most 50 characters |
| TaskService.UpdateTask | app/services/tasks.py:45-61 | a missing or foreign task is "Task not found"; otherwise only the fields given change, id and owner stay, other rows stay, and a null title or status fails at commit |
| TaskService.NoChangesChangesNothing | app/services/tasks.py:56-58 | an update that sets nothing leaves the store as it was |
| TaskService.UpdateIdempotent | app/services/tasks.py:56-58 | applying the same update twice changes nothing more |
| TaskService.UpdateTaskPreservesValid | app/services/tasks.py:45-61 | a successful update keeps the table constraints |
| TaskService.DeleteTask | app/services/tasks.py:64-73 | a missing or foreign task is "Task not found"; otherwise exactly one copy of that task leaves the table and users are untouched |
| TaskService.DeleteRemovesExactlyOne | app/services/tasks.py:64-73 | with unique ids, exactly the row with that id goes, and the id then reads as not found for everyone |
| TaskService.DeleteTaskPreservesValid | app/services/tasks.py:64-73 | a delete keeps the table constraints |
| TaskService.ForeignTaskLooksMissing | app/services/tasks.py:10 | read, update and delete of another user's task answer exactly as they do for an id that does not exist |
| UserService.GetUserById | app/services/users.py:10-17 | succeeds exactly when a row has that id, and returns it; otherwise "User not found" |
| UserService.GetUserByUsername | app/services/users.py:20-31 | succeeds exactly when a row has that username, and returns it; otherwise "User not found" |
| UserService.LookupsFindTheRow | app/models.py:19-24 | under the key and username constraints, both lookups return exactly the stored row holding the key |
| UserService.CreateUser | app/services/users.py:34-56 | an existing username is refused with "Username already registered" and nothing changes; otherwise one row is appended holding the names and the password's hash |
| UserService.CreateThenLookup | app/services/users.py:34-56 | a created user is what both lookups then return |
| UserService.CreateTwiceRefused | app/services/users.py:35-44 | registering the same username a second time is refused |
| UserService.CreateUserPreservesValid | app/services/users.py:34-56 | creation keeps keys and usernames unique and owners existing |
| UserService.PasswordWrite | app/services/users.py:69-70 | a non-empty given password is replaced by its hash; null and the empty string are written as given |
| UserService.UpdateUser | app/services/users.py:59-75 | a missing id is "User not found"; otherwise only the given fields change, the password is hashed when non-empty, other rows stay, and a null name, username or password fails at commit |
| UserService.SameIdsRowForRow | app/models.py:19 | updating fields other than the key leaves the set of user ids unchanged |
| UserService.UpdateUserPreservesValid | app/services/users.py:67-71 | the table constraints survive an update only when no other row already holds the username written |
| UserService.UpdateUserMayDuplicateUsername | app/services/users.py:67-71 | renaming a user to another user's name is accepted, and leaves two rows with one username |
| UserService.SchemaAdmitsNullName | app/schemas/users.py:25-28 | the update schema accepts a null first name, which the NOT NULL column then refuses at commit |
| UserService.DeleteUser | app/services/users.py:78-81 | a missing id is "User not found"; otherwise exactly that user goes, with every task it owns (the cascade), and every other task stays |
| UserService.RemoveUserIds | app/models.py:19 | removing a row from a table with distinct ids removes exactly that row's id |
| UserService.DeleteUserIds | app/services/users.py:78-81 | after a delete the user ids are the previous ones less the deleted id |
| UserService.DeleteUserKeepsKeys | app/services/users.py:78-81 | a delete keeps user keys, usernames and task keys unique |
| UserService.DeleteUserPreservesValid | app/models.py:27-29 | a delete keeps the constraints; the cascade leaves no task whose owner is gone |
| UserService.DeleteUserForgetsEverything | app/models.py:48-50 | after a delete, the id reads as missing, every task id reads as not found for that user, and the user's listing is empty under every status the database accepts |
| Tokens.IssueClaims | app/services/auth.py:72-80 | the signed claims are the input claims with `exp` added or overwritten, and nothing else changed |
| Tokens.Expiry | app/services/auth.py:73-79 | on the whole-second clock, no token expires at its issue instant; one is already expired exactly when the delta is negative; a missing or zero delta gives the default thirty minutes |
| Tokens.CreateAccessToken | app/services/auth.py:60-82 | under a lawful codec, the token decodes at every instant as its issued claims validate then |
| Tokens.IssuedTokenDecodes | app/services/auth.py:60-82 | for claims without `nbf`, `iat`, `aud` or `jti`, an issued token decodes to its claims before its expiry, as expired from its expiry on, and as invalid for a non-string subject |
| Tokens.ZeroDeltaMeansDefault | app/services/auth.py:73-79 | a zero lifetime issues the same token as no lifetime: valid for thirty minutes, expired at the thirtieth |
| Tokens.NegativeDeltaIsExpired | app/services/auth.py:73-75 | a negative lifetime is honoured, and the token is expired when issued |
| AuthService.RegisterUser | app/services/auth.py:124-157 | an existing username is refused; otherwise exactly one row is appended, holding the names given and the password's hash, the tasks are untouched, both lookups find the row, and it logs in with the password given |
| AuthService.RegisterUserPreservesValid | app/services/auth.py:124-157 | registration keeps keys and usernames unique and owners existing |
| AuthService.AuthenticateUser | app/services/auth.py:160-180 | succeeds exactly when the username exists and the password verifies against its stored hash; every refusal is the same "Invalid username or password" |
| AuthService.AuthenticateStoredUser | app/services/auth.py:173-180 | with unique usernames, a stored user logs in with exactly the passwords that verify against its own hash |
| AuthService.Subject | app/services/auth.py:105-107 | the subject is read when the payload holds a string `sub`, and is absent otherwise |
| AuthService.GetCurrentUser | app/services/auth.py:85-121 | expired tokens give "Token has expired"; undecodable or subjectless ones give "Could not validate credentials"; an unknown subject gives the lookup's "User not found"; it succeeds exactly when the token decodes with a string subject that a row holds, and returns a stored row with that name |
| AuthService.ResolveSession | app/services/auth.py:118-119 | as intended, every refusal is a 401 and is either "Token has expired" or "Could not validate credentials"; it succeeds exactly when the token decodes with a string subject that a row holds, and returns a stored row with that name |
| AuthService.ResolversAgree | app/services/auth.py:114-121 | the code as written and the intended one agree everywhere except on an unknown subject |
| AuthService.StaleTokenIsNotFound | app/services/auth.py:117-119 | a token whose subject no row holds answers 404 before expiry, where 401 was intended |
| AuthService.IssuedTokenResolves | app/services/auth.py:60-121 | a token whose data names an authenticated user as subject (and carries no `nbf`, `iat`, `aud` or `jti`) resolves, before expiry, to the row authentication returned |
| AuthService.ExpiredTokenRefused | app/services/auth.py:108-113 | from its expiry on, a token is refused as expired whatever the store holds |
| AuthService.SubjectlessTokenRefused | app/services/auth.py:105-107 | a token issued without a subject is refused as unvalidated |
| AuthService.ForeignTokenRefused | app/services/auth.py:114-115 | a string the codec never produced is refused as unvalidated |
| Scenario.RegisterLoginResolve | app/services/auth.py:124-180 | in the scenario, on an empty database, registering, logging in and resolving a token for the new username all succeed on the one new row, and an unknown username is refused |
| Scenario.CreateAndList | app/services/tasks.py:27-42 | in the scenario, a created task is the owner's whole listing, is not listed under another status, and is refused for a missing owner |
| Scenario.CompleteTask | app/services/tasks.py:45-61 | in the scenario, a status-only update of the one task changes that task's status alone |
| Scenario.ListCompleted | app/services/tasks.py:27-34 | in the scenario, the completed task lists under its new status, and for no other user |
| Scenario.DeleteAndStaleSession | app/services/users.py:78-81 | in the scenario, deleting the user empties the database, the task then reads as not found, and the unexpired token meets the 404 |

## Left out

- Database sessions, transactions and `refresh`: each service is a pure function from store to store. A failed commit leaves the store as it was.
- TaskService.TaskPagesConcatenate: `get_tasks` (app/services/tasks.py:23) has no ORDER BY and the models declare no ordering, so PostgreSQL promises no order between separate LIMIT/OFFSET queries, and an UPDATE can move a row within a later scan. The model fixes one scan order (`Models.Store`'s sequences, kept in place by updates), and `TaskService.GetTasks`, `TaskService.TaskPagesConcatenate`, `Rows.PagesConcatenate` and `Rows.PageOfRow` hold only under that order.
- Concurrency: the race between the username check and the insert, and the database's UNIQUE constraint that would catch it. The model does not enforce that constraint at commit.
- UserService.UpdateUser: a username collision is accepted, as the service code writes it without a check. The database's UNIQUE constraint would refuse the commit; that backstop is left out with the concurrency item above. `UserService.UpdateUserPreservesValid` therefore needs a no-collision hypothesis.
- Column lengths: PostgreSQL refuses strings longer than the declared VARCHAR lengths, and the model does not. `Models.FitsColumns` states those bounds, and `TaskService.CreateTaskFitsColumns` shows that nothing checks a title's length before the database.
- bcrypt and salting: `hash` and `verify` are abstract functions. Their one law (a password verifies against its own hash) is a hypothesis, not a theorem.
- JWT serialisation, base64url and HS256 signing (section 3.2 of RFC 7518): `encode` and `decode` are abstract. Their law (`Tokens.Lawful`) is a hypothesis. PyJWT's refusal of a non-string `sub` is folded into `Tokens.Validate`, and no leeway is modelled. The law covers only claim sets without `nbf`, `iat`, `aud` or `jti` and with an integer `exp`. PyJWT also refuses a future `nbf` or `iat`, any `aud` when no audience is requested, and a non-string `jti`, and none of that is modelled. The token lemmas state this as their hypothesis `Tokens.NoOtherCheckedClaims(data)`. A caller that signs only `{"sub": username}` meets it. No route in the source calls `create_access_token` (the `/login` route is a stub that returns a message).
- Tokens.IssuedTokenDecodes: holds only for data without `nbf`, `iat`, `aud` or `jti`, for the reason above; the same hypothesis is on `Tokens.ZeroDeltaMeansDefault`, `Tokens.NegativeDeltaIsExpired` and the token lemmas of `AuthService`.
- passlib's `verify` raises an error, rather than answering false, for a stored value that is not a bcrypt hash. In the model `verify` is a total function. The service-level `UserService.UpdateUser` can store the empty string as a password (the `if k == 'password' and v:` path), and `AuthService.AuthenticateUser` then answers with `verify`'s result where passlib would raise. The update schema's six-character rule keeps the empty string from arriving through the API.
- Wall-clock time: `now` is an integer count of seconds, and a `timedelta` is an integer count of seconds. Sub-second deltas are therefore not modelled. PyJWT truncates `exp` to whole seconds, so a positive `expires_delta` under one second is truthy at app/services/auth.py:73 yet can issue a token that is already expired. `Tokens.Expiry`'s "no token expires at its issue instant" holds only on the whole-second clock.
- HTTP status codes, headers such as `WWW-Authenticate`, `Depends` and `OAuth2PasswordBearer`: only each error's kind and detail text are kept.
- The route modules, `main.py`, and environment loading in `config.py`: only `ACCESS_TOKEN_EXPIRE_MINUTES = 30` is used.
- Pydantic error messages other than the four reasons modelled, and JSON values beyond null, strings and "anything else".
- The `UserRead` of the auth schema differs from the users one only by a default that plays no role in a response. Both are `UserSchemas.UserRead`.
- The copies of `get_user_by_id` and `get_user_by_username` in the auth service (app/services/auth.py:16-57) are line-for-line those of the user service, and are modelled once, by `UserService.GetUserById` and `UserService.GetUserByUsername`.

## Findings

| source | as written | input that shows it | evidently intended | confidence | as-written member | corrected member |
|---|---|---|---|---|---|---|
| app/services/auth.py:117-119 | `get_current_user` looks the subject up with `get_user_by_username`, which raises 404 "User not found" itself, so the `user is None` branch never runs | a valid, unexpired token for `{"sub": "ann"}` after user `ann` was deleted | the 401 "Could not validate credentials" of the dead branch | not executed | AuthService.StaleTokenIsNotFound | AuthService.ResolveSession |

=== FILE: auth_schemas.dfy ===
/** The auth service's shapes: its own `UserCreate`, where `last_name` may be left
    out and defaults to None, the shared `UserRead`, and `Token`. */
module AuthSchemas {
  import opened Outcomes
  import opened Payloads
  import UserSchemas

  function ParseUserCreate(p: Payload): (r: Result<UserSchemas.UserCreate>)
    ensures r.Ok? ==> "first_name" in p && p["first_name"] == JStr(r.value.firstName)
    ensures r.Ok? ==> "username" in p && p["username"] == JStr(r.value.username)
    ensures r.Ok? ==> "password" in p && p["password"] == JStr(r.value.password)
    ensures r.Ok? ==> |r.value.password| >= UserSchemas.PasswordMinLength
    ensures r.Ok? && "last_name" !in p ==> r.value.lastName == None
    ensures r.Ok? && "last_name" in p ==> p["last_name"] == OptJson(r.value.lastName)
    ensures r.Ok? <==>
              && "first_name" in p && p["first_name"].JStr?
              && ("last_name" in p ==> !p["last_name"].JOther?)
              && "username" in p && p["username"].JStr?
              && "password" in p && p["password"].JStr? && |p["password"].s| >= UserSchemas.PasswordMinLength
    ensures r.Err? ==> r.error.Invalid? && |r.error.errors| > 0
  {
    var firstName := RequiredStr(p, "first_name");
    var lastName := OptionalStr(p, "last_name");
    var username := RequiredStr(p, "username");
    var password := RequiredStrMin(p, "password", UserSchemas.PasswordMinLength);
    if firstName.Pass? && lastName.Pass? && username.Pass? && password.Pass? then
      Ok(UserSchemas.UserCreate(firstName.value, lastName.value, username.value, password.value))
    else
      Err(Invalid(Errors(firstName) + Errors(lastName) + Errors(username) + Errors(password)))
  }

  /** The two `UserCreate` schemas differ only on an omitted `last_name`. */
  lemma UserCreateSchemasAgree(p: Payload)
    ensures "last_name" in p ==> ParseUserCreate(p) == UserSchemas.ParseUserCreate(p)
    ensures "last_name" !in p ==> UserSchemas.ParseUserCreate(p).Err?
  {
  }

  /** A registration payload with a password shorter than six characters is refused. */
  lemma ShortPasswordRefused(p: Payload)
    requires "password" in p && p["password"].JStr? && |p["password"].s| < UserSchemas.PasswordMinLength
    ensures ParseUserCreate(p).Err?
    ensures FieldError("password", TooShort(UserSchemas.PasswordMinLength)) in ParseUserCreate(p).error.errors
  {
  }

  datatype Token = Token(accessToken: string, tokenType: string)

  function ParseToken(p: Payload): (r: Result<Token>)
    ensures r.Ok? <==> "access_token" in p && p["access_token"].JStr? && "token_type" in p && p["token_type"].JStr?
    ensures r.Ok? ==> p["access_token"] == JStr(r.value.accessToken) && p["token_type"] == JStr(r.value.tokenType)
  {
    var accessToken := RequiredStr(p, "access_token");
    var tokenType := RequiredStr(p, "token_type");
    if accessToken.Pass? && tokenType.Pass? then Ok(Token(accessToken.value, tokenType.value))
    else Err(Invalid(Errors(accessToken) + Errors(tokenType)))
  }

  function DumpToken(t: Token): Payload
  {
    map["access_token" := JStr(t.accessToken), "token_type" := JStr(t.tokenType)]
  }

  lemma TokenRoundTrip(t: Token)
    ensures ParseToken(DumpToken(t)) == Ok(t)
  {
  }
}

=== FILE: auth_service.dfy ===
/** The auth service: registration, password login, access-token issue (in the
    tokens module) and resolving a bearer token to the current user. */
module AuthService {
  import opened Outcomes
  import opened Models
  import opened Passwords
  import opened Tokens
  import opened UserSchemas
  import opened UserService

  /** `register_user`: the same check-then-insert as `create_user`, reached from
      the registration schema. The one new row carries the names given and the
      password's hash, nothing else changes, a registered user can log in with
      the password given, and both lookups find the new row. */
  function RegisterUser(h: Hasher, s: Store, data: UserCreate, newId: int): (r: Result<(Store, User)>)
    requires FreshUserId(s, newId)
    ensures r.Err? <==> data.username in Usernames(s)
    ensures r.Err? ==> r.error == UsernameTaken
    ensures r.Ok? ==> r.value.1 == User(newId, data.firstName, data.lastName, data.username, h.hash(data.password))
    ensures r.Ok? ==> r.value.0 == Store(s.users + [r.value.1], s.tasks)
    ensures r.Ok? ==> GetUserByUsername(r.value.0, data.username) == Ok(r.value.1)
    ensures r.Ok? ==> GetUserById(r.value.0, newId) == Ok(r.value.1)
    ensures r.Ok? && Sound(h) ==> AuthenticateUser(h, r.value.0, data.username, data.password) == Ok(r.value.1)
  {
    var r := CreateUser(h, s, data, newId);
    if r.Ok? then CreateThenLookup(h, s, data, newId); r else r
  }

  /** Registration keeps the table constraints. */
  lemma RegisterUserPreservesValid(h: Hasher, s: Store, data: UserCreate, newId: int)
    requires Valid(s) && FreshUserId(s, newId)
    requires RegisterUser(h, s, data, newId).Ok?
    ensures Valid(RegisterUser(h, s, data, newId).value.0)
  {
    CreateUserPreservesValid(h, s, data, newId);
  }

  /** `authenticate_user`: the first row with that username, if the password
      verifies against its stored hash. An unknown username and a wrong password
      give the same answer. */
  function AuthenticateUser(h: Hasher, s: Store, username: string, password: string): (r: Result<User>)
    ensures r.Ok? <==> username in Usernames(s) && h.verify(password, GetUserByUsername(s, username).value.password)
    ensures r.Ok? ==> r.value in s.users && r.value.username == username && h.verify(password, r.value.password)
    ensures r.Err? ==> r.error == BadLogin
  {
    match GetUserByUsername(s, username)
    case Err(_) => Err(BadLogin)
    case Ok(u) => if h.verify(password, u.password) then Ok(u) else Err(BadLogin)
  }

  /** Under the username constraint, a user logs in with exactly the passwords
      that verify against their own stored hash. */
  lemma AuthenticateStoredUser(h: Hasher, s: Store, u: User, password: string)
    requires KeysUnique(s) && UsernamesUnique(s)
    requires u in s.users
    ensures AuthenticateUser(h, s, u.username, password).Ok? <==> h.verify(password, u.password)
    ensures AuthenticateUser(h, s, u.username, password).Ok? ==> AuthenticateUser(h, s, u.username, password).value == u
  {
    LookupsFindTheRow(s, u);
  }

  /** The subject `payload.get("sub")` yields, when the payload carries a string one. */
  function Subject(c: Claims): (r: Option<string>)
    ensures r.Some? <==> Sub in c && c[Sub].Str?
    ensures r.Some? ==> c[Sub] == Str(r.value)
  {
    if Sub in c && c[Sub].Str? then Some(c[Sub].s) else None
  }

  /** `get_current_user` as written: decode errors are sorted into "Token has
      expired" and "Could not validate credentials", a payload without a subject
      is refused, and the subject is then looked up with `get_user_by_username`,
      whose own 404 escapes for an unknown subject. */
  function GetCurrentUser(k: Codec, s: Store, token: string, now: int): (r: Result<User>)
    ensures r == Err(TokenExpired) <==> k.decode(token, now) == ExpiredSignature
    ensures r == Err(CredentialsRejected) <==>
              k.decode(token, now) == InvalidToken || (k.decode(token, now).Payload? && Subject(k.decode(token, now).claims).None?)
    ensures r == Err(UserNotFound) <==>
              && k.decode(token, now).Payload?
              && Subject(k.decode(token, now).claims).Some?
              && Subject(k.decode(token, now).claims).value !in Usernames(s)
    ensures r.Ok? <==>
              && k.decode(token, now).Payload?
              && Subject(k.decode(token, now).claims).Some?
              && Subject(k.decode(token, now).claims).value in Usernames(s)
    ensures r.Ok? ==>
              && k.decode(token, now).Payload?
              && Subject(k.decode(token, now).claims) == Some(r.value.username)
              && r.value in s.users
  {
    match k.decode(token, now)
    case ExpiredSignature => Err(TokenExpired)
    case InvalidToken => Err(CredentialsRejected)
    case Payload(c) =>
      match Subject(c)
      case None => Err(CredentialsRejected)
      case Some(name) => GetUserByUsername(s, name)
  }

  /** `get_current_user` as its `user is None` branch intends: every refusal is the
      401 credentials exception, an unknown subject included. */
  function ResolveSession(k: Codec, s: Store, token: string, now: int): (r: Result<User>)
    ensures r.Err? ==> r.error.Kind() == Unauthorized
    ensures r == Err(TokenExpired) <==> k.decode(token, now) == ExpiredSignature
    ensures r.Err? ==> r.error == TokenExpired || r.error == CredentialsRejected
    ensures r.Ok? <==>
              && k.decode(token, now).Payload?
              && Subject(k.decode(token, now).claims).Some?
              && Subject(k.decode(token, now).claims).value in Usernames(s)
    ensures r.Ok? ==>
              && k.decode(token, now).Payload?
              && Subject(k.decode(token, now).claims) == Some(r.value.username)
              && r.value in s.users
  {
    match k.decode(token, now)
    case ExpiredSignature => Err(TokenExpired)
    case InvalidToken => Err(CredentialsRejected)
    case Payload(c) =>
      match Subject(c)
      case None => Err(CredentialsRejected)
      case Some(name) =>
        match GetUserByUsername(s, name)
        case Err(_) => Err(CredentialsRejected)
        case Ok(u) => Ok(u)
  }

  /** The two resolvers agree everywhere except on an unknown subject, where the
      code as written answers 404 and the intended one 401. */
  lemma ResolversAgree(k: Codec, s: Store, token: string, now: int)
    ensures GetCurrentUser(k, s, token, now) != Err(UserNotFound) ==>
              ResolveSession(k, s, token, now) == GetCurrentUser(k, s, token, now)
    ensures GetCurrentUser(k, s, token, now) == Err(UserNotFound) ==>
              ResolveSession(k, s, token, now) == Err(CredentialsRejected)
  {
  }

  /** A token issued for a username that no row holds (its user deleted or renamed
      after login) resolves, before it expires, to the lookup's 404 rather than to
      the 401 credentials exception. */
  lemma StaleTokenIsNotFound(k: Codec, s: Store, data: Claims, delta: Option<int>, issuedAt: int, now: int)
    requires Lawful(k) && NoOtherCheckedClaims(data)
    requires Sub in data && data[Sub].Str? && data[Sub].s !in Usernames(s)
    requires now < Expiry(delta, issuedAt)
    ensures GetCurrentUser(k, s, CreateAccessToken(k, data, delta, issuedAt), now) == Err(UserNotFound)
    ensures GetCurrentUser(k, s, CreateAccessToken(k, data, delta, issuedAt), now).error.Kind() == NotFound
    ensures ResolveSession(k, s, CreateAccessToken(k, data, delta, issuedAt), now) == Err(CredentialsRejected)
  {
    IssuedTokenDecodes(k, data, delta, issuedAt, now);
  }

  /** Issue then resolve: a token carrying a user's name resolves, before it
      expires, to the row authentication returned. */
  lemma IssuedTokenResolves(h: Hasher, k: Codec, s: Store, username: string, password: string,
                            data: Claims, delta: Option<int>, issuedAt: int, now: int)
    requires Lawful(k) && NoOtherCheckedClaims(data)
    requires AuthenticateUser(h, s, username, password).Ok?
    requires Sub in data && data[Sub] == Str(username)
    requires now < Expiry(delta, issuedAt)
    ensures GetCurrentUser(k, s, CreateAccessToken(k, data, delta, issuedAt), now)
            == AuthenticateUser(h, s, username, password)
    ensures ResolveSession(k, s, CreateAccessToken(k, data, delta, issuedAt), now)
            == AuthenticateUser(h, s, username, password)
  {
    IssuedTokenDecodes(k, data, delta, issuedAt, now);
  }

  /** From its expiry on, a token is refused as expired whatever it carries and
      whatever the store holds. */
  lemma ExpiredTokenRefused(k: Codec, s: Store, data: Claims, delta: Option<int>, issuedAt: int, now: int)
    requires Lawful(k) && NoOtherCheckedClaims(data)
    requires now >= Expiry(delta, issuedAt)
    ensures GetCurrentUser(k, s, CreateAccessToken(k, data, delta, issuedAt), now) == Err(TokenExpired)
  {
    IssuedTokenDecodes(k, data, delta, issuedAt, now);
  }

  /** A token issued without a subject is refused as unvalidated until it expires. */
  lemma SubjectlessTokenRefused(k: Codec, s: Store, data: Claims, delta: Option<int>, issuedAt: int, now: int)
    requires Lawful(k) && NoOtherCheckedClaims(data)
    requires Sub !in data
    requires now < Expiry(delta, issuedAt)
    ensures GetCurrentUser(k, s, CreateAccessToken(k, data, delta, issuedAt), now) == Err(CredentialsRejected)
  {
    IssuedTokenDecodes(k, data, delta, issuedAt, now);
    assert Sub !in IssueClaims(data, delta, issuedAt);
  }

  /** A string this codec never produced (a forged, truncated or foreign token) is
      refused as unvalidated. */
  lemma ForeignTokenRefused(k: Codec, s: Store, token: string, now: int)
    requires Lawful(k)
    requires forall c :: k.encode(c) != token
    ensures GetCurrentUser(k, s, token, now) == Err(CredentialsRejected)
    ensures ResolveSession(k, s, token, now) == Err(CredentialsRejected)
  {
  }
}

=== FILE: models.dfy ===
/** The persisted records: the `users` and `tasks` tables, the task status enum,
    and the table constraints the schema declares (primary keys, the unique
    username, the owner foreign key, NOT NULL columns and column lengths). */
module Models {
  import opened Outcomes

  /** The closed three-member status enum. */
  datatype TaskStatus = New | InProgress | Completed
  {
    /** The member's value: what the API schemas read and write. */
    function Value(): string
    {
      match this
      case New => "New"
      case InProgress => "In Progress"
      case Completed => "Completed"
    }

    /** The member's name: the label the database enum type `taskstatus` stores. */
    function Label(): string
    {
      match this
      case New => "NEW"
      case InProgress => "IN_PROGRESS"
      case Completed => "COMPLETED"
    }
  }

  /** The status a new task gets when none is given. */
  const DefaultStatus: TaskStatus := New

  /** The member whose value is `s`, if any. */
  function StatusFromValue(s: string): (r: Option<TaskStatus>)
    ensures r.Some? ==> r.value.Value() == s
    ensures r.None? ==> forall st: TaskStatus :: st.Value() != s
  {
    if s == "New" then Some(New)
    else if s == "In Progress" then Some(InProgress)
    else if s == "Completed" then Some(Completed)
    else None
  }

  /** The member whose label is `s`, if any: the strings the `taskstatus` type admits. */
  function StatusFromLabel(s: string): (r: Option<TaskStatus>)
    ensures r.Some? ==> r.value.Label() == s
    ensures r.None? ==> forall st: TaskStatus :: st.Label() != s
  {
    if s == "NEW" then Some(New)
    else if s == "IN_PROGRESS" then Some(InProgress)
    else if s == "COMPLETED" then Some(Completed)
    else None
  }

  /** Values and labels are two injective spellings of the three members. */
  lemma StatusSpellings(a: TaskStatus, b: TaskStatus)
    ensures StatusFromValue(a.Value()) == Some(a)
    ensures StatusFromLabel(a.Label()) == Some(a)
    ensures StatusFromLabel(a.Value()) == None
    ensures a.Value() == b.Value() <==> a == b
    ensures a.Label() == b.Label() <==> a == b
    ensures a.Value() != b.Label()
  {
  }

  /** Declared lengths: String(50) and String(100) columns. */
  const FirstNameMax: nat := 50
  const UsernameMax: nat := 50
  const PasswordMax: nat := 100
  const TitleMax: nat := 50

  /** A `users` row. `last_name` is the only nullable column; `password` holds
      whatever the service stored, which is a hash on every path but one. */
  datatype User = User(
    id: int,
    firstName: string,
    lastName: Option<string>,
    username: string,
    password: string)

  /** A `tasks` row; `userId` is the owner foreign key. */
  datatype Task = Task(
    id: int,
    title: string,
    description: Option<string>,
    status: TaskStatus,
    userId: int)

  /** Both tables, each as its rows in scan order. */
  datatype Store = Store(users: seq<User>, tasks: seq<Task>)

  function UserIds(s: Store): set<int>
  {
    set u | u in s.users :: u.id
  }

  function TaskIds(s: Store): set<int>
  {
    set t | t in s.tasks :: t.id
  }

  function Usernames(s: Store): set<string>
  {
    set u | u in s.users :: u.username
  }

  /** An id the `users` sequence may hand out next. */
  predicate FreshUserId(s: Store, id: int)
  {
    id !in UserIds(s)
  }

  /** An id the `tasks` sequence may hand out next. */
  predicate FreshTaskId(s: Store, id: int)
  {
    id !in TaskIds(s)
  }

  /** Primary keys: no two rows of a table share an id. */
  predicate KeysUnique(s: Store)
  {
    && (forall i, j :: 0 <= i < j < |s.users| ==> s.users[i].id != s.users[j].id)
    && (forall i, j :: 0 <= i < j < |s.tasks| ==> s.tasks[i].id != s.tasks[j].id)
  }

  /** `username` is declared unique. */
  predicate UsernamesUnique(s: Store)
  {
    forall i, j :: 0 <= i < j < |s.users| ==> s.users[i].username != s.users[j].username
  }

  /** The owner foreign key: every task's `user_id` names an existing user. */
  predicate OwnersExist(s: Store)
  {
    forall t :: t in s.tasks ==> t.userId in UserIds(s)
  }

  /** The table constraints a committed store satisfies. */
  predicate Valid(s: Store)
  {
    KeysUnique(s) && UsernamesUnique(s) && OwnersExist(s)
  }

  /** The declared VARCHAR lengths, which neither the schemas nor the services check. */
  predicate FitsColumns(s: Store)
  {
    && (forall u :: u in s.users ==>
          |u.firstName| <= FirstNameMax && |u.username| <= UsernameMax && |u.password| <= PasswordMax)
    && (forall t :: t in s.tasks ==> |t.title| <= TitleMax)
  }

  /** The empty database. */
  const Empty: Store := Store([], [])

  lemma EmptyIsValid()
    ensures Valid(Empty) && FitsColumns(Empty)
  {
  }
}

=== FILE: outcomes.dfy ===
/** Outcome types shared by every layer: optional values, partial-update fields,
    and the failures the services raise. Each failure keeps the HTTP exception's
    `detail` message and a kind; status codes and headers belong to the web layer. */
module Outcomes {

  datatype Option<+T> = None | Some(value: T)

  /** One field of a partial update: left out of the payload (so excluded by
      `model_dump(exclude_unset=True)`), or explicitly given, possibly as null. */
  datatype Patch<+T> = Unset | Set(value: T)

  /** The value a patched field ends up with. */
  function Apply<T>(p: Patch<T>, current: T): T
  {
    match p
    case Unset => current
    case Set(v) => v
  }

  /** The value a patched NOT NULL column ends up with, or None when the patch
      writes null into it. */
  function AssignNonNull<T>(p: Patch<Option<T>>, current: T): Option<T>
  {
    match p
    case Unset => Some(current)
    case Set(v) => v
  }

  /** Why the request schema refused one field. */
  datatype Reason =
    | Missing              // "Field required"
    | NotAString           // "Input should be a valid string"
    | TooShort(min: nat)   // "String should have at least <min> characters"
    | NotAStatus           // "Input should be 'New', 'In Progress' or 'Completed'"

  datatype FieldError = FieldError(field: string, reason: Reason)

  /** `Integrity` and `DataRejected` are the database's IntegrityError and
      DataError, which no service catches. */
  datatype ErrorKind = NotFound | BadRequest | Unauthorized | Integrity | DataRejected | Unprocessable

  datatype Failure =
    | TaskNotFound
    | UserNotFound
    | UsernameTaken
    | BadLogin
    | CredentialsRejected
    | TokenExpired
      /** The database refuses a commit that writes NULL into a NOT NULL column. */
    | NullColumn(column: string)
      /** The database refuses a commit whose `user_id` names no `users` row. */
    | NoSuchOwner(ownerId: int)
      /** PostgreSQL refuses an integer outside the 64-bit `bigint` range. */
    | BigintOutOfRange
      /** PostgreSQL refuses a negative OFFSET (checked first) or LIMIT. */
    | NegativeWindow(clause: string)
      /** PostgreSQL refuses a string that is not a label of the `taskstatus` enum. */
    | NotAnEnumLabel(text: string)
      /** The request schema refused the payload before any service ran. */
    | Invalid(errors: seq<FieldError>)
  {
    function Kind(): ErrorKind
    {
      match this
      case TaskNotFound | UserNotFound => NotFound
      case UsernameTaken => BadRequest
      case BadLogin | CredentialsRejected | TokenExpired => Unauthorized
      case NullColumn(_) | NoSuchOwner(_) => Integrity
      case BigintOutOfRange | NegativeWindow(_) | NotAnEnumLabel(_) => DataRejected
      case Invalid(_) => Unprocessable
    }

    function Detail(): string
    {
      match this
      case TaskNotFound => "Task not found"
      case UserNotFound => "User not found"
      case UsernameTaken => "Username already registered"
      case BadLogin => "Invalid username or password"
      case CredentialsRejected => "Could not validate credentials"
      case TokenExpired => "Token has expired"
      case NullColumn(c) => "null value in column \"" + c + "\" violates not-null constraint"
      case NoSuchOwner(_) => "insert or update on table \"tasks\" violates foreign key constraint"
      case BigintOutOfRange => "bigint out of range"
      case NegativeWindow(c) => c + " must not be negative"
      case NotAnEnumLabel(t) => "invalid input value for enum taskstatus: \"" + t + "\""
      case Invalid(_) => "validation error"
    }
  }

  datatype Result<+T> = Ok(value: T) | Err(error: Failure)
}

=== FILE: passwords.dfy ===
/** The password context (`CryptContext(schemes=["bcrypt"])`) shared by the user
    and auth services. bcrypt itself is not modelled: `hash` and `verify` are
    whatever functions the context computes, and the one law the model relies on
    is stated as a predicate that the lemmas needing it take as a hypothesis. */
module Passwords {

  /** `pwd_context.hash` and `pwd_context.verify`; the salt is folded into `hash`. */
  datatype Hasher = Hasher(hash: string -> string, verify: (string, string) -> bool)

  /** A password verifies against its own hash. */
  ghost predicate Sound(h: Hasher)
  {
    forall p :: h.verify(p, h.hash(p))
  }
}

=== FILE: payloads.dfy ===
/** How the request schemas read one field of a JSON object, for each field shape
    the schemas declare. A key absent from the map was left out of the payload;
    keys no schema declares are ignored. Every reader is paired with the way
    `model_dump` writes the field back. */
module Payloads {
  import opened Outcomes
  import opened Models

  /** A JSON value, as far as the schemas distinguish them. */
  datatype Json = JNull | JStr(s: string) | JOther

  type Payload = map<string, Json>

  /** A field the schema accepted, or the error it reports for that field. */
  datatype Checked<+T> = Pass(value: T) | Reject(error: FieldError)

  function Errors<T>(c: Checked<T>): seq<FieldError>
  {
    if c.Reject? then [c.error] else []
  }

  /** `name: str` */
  function RequiredStr(p: Payload, name: string): (r: Checked<string>)
    ensures r.Pass? <==> name in p && p[name].JStr?
    ensures r.Pass? ==> p[name] == JStr(r.value)
    ensures r.Reject? ==> r.error == FieldError(name, if name in p then NotAString else Missing)
  {
    if name !in p then Reject(FieldError(name, Missing))
    else match p[name]
      case JStr(s) => Pass(s)
      case _ => Reject(FieldError(name, NotAString))
  }

  /** `name: str = Field(..., min_length=min)` */
  function RequiredStrMin(p: Payload, name: string, min: nat): (r: Checked<string>)
    ensures r.Pass? <==> name in p && p[name].JStr? && |p[name].s| >= min
    ensures r.Pass? ==> p[name] == JStr(r.value)
    ensures name in p && p[name].JStr? && |p[name].s| < min ==> r == Reject(FieldError(name, TooShort(min)))
  {
    match RequiredStr(p, name)
    case Pass(s) => if |s| < min then Reject(FieldError(name, TooShort(min))) else Pass(s)
    case Reject(e) => Reject(e)
  }

  /** The value of a `str | None` field that is present. */
  function NullableValue(name: string, v: Json): Checked<Option<string>>
  {
    match v
    case JNull => Pass(None)
    case JStr(s) => Pass(Some(s))
    case JOther => Reject(FieldError(name, NotAString))
  }

  /** `name: str | None = None`: absent and null both read as None. */
  function OptionalStr(p: Payload, name: string): (r: Checked<Option<string>>)
    ensures r.Pass? <==> name !in p || !p[name].JOther?
    ensures name !in p ==> r == Pass(None)
    ensures r.Pass? && name in p ==> p[name] == OptJson(r.value)
    ensures r.Reject? ==> r.error == FieldError(name, NotAString)
  {
    if name !in p then Pass(None) else NullableValue(name, p[name])
  }

  /** `name: str | None` with no default: the key is required, null is allowed. */
  function NullableStr(p: Payload, name: string): (r: Checked<Option<string>>)
    ensures r.Pass? <==> name in p && !p[name].JOther?
    ensures r.Pass? ==> p[name] == OptJson(r.value)
    ensures r.Reject? ==> r.error == FieldError(name, if name in p then NotAString else Missing)
  {
    if name !in p then Reject(FieldError(name, Missing)) else NullableValue(name, p[name])
  }

  /** `name: str | None = None`, read the way `model_dump(exclude_unset=True)`
      reports it: unset when absent, set (possibly to None) when present. */
  function PatchStr(p: Payload, name: string): (r: Checked<Patch<Option<string>>>)
    ensures name !in p <==> r == Pass(Unset)
    ensures r.Pass? <==> name !in p || !p[name].JOther?
    ensures r.Pass? && r.value.Set? ==> name in p && p[name] == OptJson(r.value.value)
    ensures r.Reject? ==> r.error == FieldError(name, NotAString)
  {
    if name !in p then Pass(Unset)
    else match NullableValue(name, p[name])
      case Pass(v) => Pass(Set(v))
      case Reject(e) => Reject(e)
  }

  /** `name: str | None = Field(None, min_length=min)` as a patch: the length
      rule applies to a given string, not to an absent or null value. */
  function PatchStrMin(p: Payload, name: string, min: nat): (r: Checked<Patch<Option<string>>>)
    ensures name !in p <==> r == Pass(Unset)
    ensures r.Pass? <==> name !in p || p[name] == JNull || (p[name].JStr? && |p[name].s| >= min)
    ensures r.Pass? && r.value.Set? ==> name in p && p[name] == OptJson(r.value.value)
    ensures r.Pass? && r.value.Set? && r.value.value.Some? ==> |r.value.value.value| >= min
    ensures name in p && p[name].JStr? && |p[name].s| < min ==> r == Reject(FieldError(name, TooShort(min)))
    ensures name in p && p[name].JOther? ==> r == Reject(FieldError(name, NotAString))
  {
    match PatchStr(p, name)
    case Pass(Set(Some(s))) => if |s| < min then Reject(FieldError(name, TooShort(min))) else Pass(Set(Some(s)))
    case other => other
  }

  /** The status named by a present value. */
  function StatusValue(name: string, v: Json): (r: Checked<TaskStatus>)
    ensures r.Pass? <==> v.JStr? && StatusFromValue(v.s).Some?
    ensures r.Pass? ==> v == JStr(r.value.Value())
  {
    if v.JStr? && StatusFromValue(v.s).Some? then Pass(StatusFromValue(v.s).value)
    else Reject(FieldError(name, NotAStatus))
  }

  /** `status: TaskStatus = TaskStatus.NEW` */
  function StatusOr(p: Payload, name: string, default: TaskStatus): (r: Checked<TaskStatus>)
    ensures r.Pass? <==> name !in p || (p[name].JStr? && StatusFromValue(p[name].s).Some?)
    ensures name !in p ==> r == Pass(default)
    ensures r.Pass? && name in p ==> p[name] == JStr(r.value.Value())
    ensures r.Reject? ==> r.error == FieldError(name, NotAStatus)
  {
    if name !in p then Pass(default) else StatusValue(name, p[name])
  }

  /** `status: TaskStatus`, required. */
  function RequiredStatus(p: Payload, name: string): (r: Checked<TaskStatus>)
    ensures r.Pass? <==> name in p && p[name].JStr? && StatusFromValue(p[name].s).Some?
    ensures r.Pass? ==> p[name] == JStr(r.value.Value())
    ensures r.Reject? ==> r.error == FieldError(name, if name in p then NotAStatus else Missing)
  {
    if name !in p then Reject(FieldError(name, Missing)) else StatusValue(name, p[name])
  }

  /** `status: TaskStatus | None = None` as a patch. */
  function PatchStatus(p: Payload, name: string): (r: Checked<Patch<Option<TaskStatus>>>)
    ensures name !in p <==> r == Pass(Unset)
    ensures r.Pass? <==> name !in p || p[name] == JNull || (p[name].JStr? && StatusFromValue(p[name].s).Some?)
    ensures name in p && p[name] == JNull ==> r == Pass(Set(None))
    ensures r.Pass? && r.value.Set? && r.value.value.Some? ==> name in p && p[name] == JStr(r.value.value.value.Value())
    ensures r.Reject? ==> r.error == FieldError(name, NotAStatus)
  {
    if name !in p then Pass(Unset)
    else if p[name] == JNull then Pass(Set(None))
    else match StatusValue(name, p[name])
      case Pass(st) => Pass(Set(Some(st)))
      case Reject(e) => Reject(e)
  }

  /** How `model_dump` writes an optional string. */
  function OptJson(o: Option<string>): Json
  {
    match o
    case None => JNull
    case Some(s) => JStr(s)
  }

  /** How `model_dump(exclude_unset=True)` writes a patched field into `p`. */
  function PutPatch(p: Payload, name: string, v: Patch<Json>): Payload
  {
    match v
    case Unset => p
    case Set(j) => p[name := j]
  }

  function PatchJson(v: Patch<Option<string>>): Patch<Json>
  {
    match v
    case Unset => Unset
    case Set(o) => Set(OptJson(o))
  }

  function PatchStatusJson(v: Patch<Option<TaskStatus>>): Patch<Json>
  {
    match v
    case Unset => Unset
    case Set(None) => Set(JNull)
    case Set(Some(st)) => Set(JStr(st.Value()))
  }
}

=== FILE: rows.dfy ===
/** The three query shapes the services issue against a table, over the table's
    rows in scan order: `.filter(p).first()`, `.filter(p).all()` and
    `.offset(k).limit(n).all()`, plus the row removal a delete performs. */
module Rows {
  import opened Outcomes

  /** Index of the first row satisfying `p`: the row `.filter(p).first()` returns. */
  function FindFirst<T>(rows: seq<T>, p: T -> bool): (r: Option<nat>)
    ensures r.Some? ==> r.value < |rows| && p(rows[r.value])
    ensures r.Some? ==> forall j :: 0 <= j < r.value ==> !p(rows[j])
    ensures r.None? <==> forall j :: 0 <= j < |rows| ==> !p(rows[j])
  {
    if |rows| == 0 then None
    else if p(rows[0]) then Some(0)
    else
      match FindFirst(rows[1..], p)
      case None => None
      case Some(i) => Some(i + 1)
  }

  /** `.filter(p).all()`: the rows satisfying `p`, in scan order. */
  function Where<T(!new)>(rows: seq<T>, p: T -> bool): (r: seq<T>)
    ensures |r| <= |rows|
    ensures forall i :: 0 <= i < |r| ==> p(r[i])
    ensures forall x :: multiset(r)[x] == if p(x) then multiset(rows)[x] else 0
  {
    if |rows| == 0 then []
    else
      assert rows == [rows[0]] + rows[1..];
      if p(rows[0]) then [rows[0]] + Where(rows[1..], p) else Where(rows[1..], p)
  }

  /** Membership form of `Where`'s contract. */
  lemma WhereMembers<T(!new)>(rows: seq<T>, p: T -> bool, x: T)
    ensures x in Where(rows, p) <==> x in rows && p(x)
  {
    assert x in Where(rows, p) <==> multiset(Where(rows, p))[x] > 0;
    assert x in rows <==> multiset(rows)[x] > 0;
  }

  /** `.filter(p).filter(q)` selects, in the same order, what one filter on
      `p and q` selects. */
  lemma {:induction false} WhereWhere<T(!new)>(rows: seq<T>, p: T -> bool, q: T -> bool, both: T -> bool)
    requires forall x :: both(x) == (p(x) && q(x))
    ensures Where(Where(rows, p), q) == Where(rows, both)
  {
    if |rows| > 0 {
      WhereWhere(rows[1..], p, q, both);
    }
  }

  /** No two rows share a key. */
  predicate DistinctKeys<T, K(==)>(rows: seq<T>, key: T -> K)
  {
    forall a, b :: 0 <= a < b < |rows| ==> key(rows[a]) != key(rows[b])
  }

  /** Filtering keeps keys distinct: the result is a subsequence. */
  lemma {:induction false} WhereKeepsDistinct<T(!new), K>(rows: seq<T>, p: T -> bool, key: T -> K)
    requires DistinctKeys(rows, key)
    ensures DistinctKeys(Where(rows, p), key)
  {
    if |rows| > 0 {
      var tail := rows[1..];
      assert DistinctKeys(tail, key) by {
        forall a, b | 0 <= a < b < |tail| ensures key(tail[a]) != key(tail[b]) {
          assert tail[a] == rows[a + 1] && tail[b] == rows[b + 1];
        }
      }
      WhereKeepsDistinct(tail, p, key);
      var rest := Where(tail, p);
      if p(rows[0]) {
        forall x | x in rest ensures key(x) != key(rows[0]) {
          WhereMembers(tail, p, x);
          var j :| 0 <= j < |tail| && tail[j] == x;
          assert rows[j + 1] == x;
        }
        DistinctCons(rows[0], rest, key);
      }
    }
  }

  lemma DistinctCons<T, K>(x: T, rest: seq<T>, key: T -> K)
    requires DistinctKeys(rest, key)
    requires forall y :: y in rest ==> key(y) != key(x)
    ensures DistinctKeys([x] + rest, key)
  {
    var r := [x] + rest;
    forall a, b | 0 <= a < b < |r| ensures key(r[a]) != key(r[b]) {
      assert r[b] == rest[b - 1];
      if a > 0 {
        assert r[a] == rest[a - 1];
      }
    }
  }

  /** `.offset(offset).limit(limit).all()`. */
  function OffsetLimit<T>(rows: seq<T>, offset: nat, limit: nat): (r: seq<T>)
    ensures |r| <= limit
    ensures offset >= |rows| ==> r == []
    ensures offset < |rows| ==> |r| == if limit < |rows| - offset then limit else |rows| - offset
    ensures forall i :: 0 <= i < |r| ==> offset + i < |rows| && r[i] == rows[offset + i]
  {
    if offset >= |rows| then []
    else if limit < |rows| - offset then rows[offset..offset + limit]
    else rows[offset..]
  }

  /** Two consecutive pages together are the page that spans both. */
  lemma PagesConcatenate<T>(rows: seq<T>, offset: nat, a: nat, b: nat)
    ensures OffsetLimit(rows, offset, a) + OffsetLimit(rows, offset + a, b)
            == OffsetLimit(rows, offset, a + b)
  {
    var left := OffsetLimit(rows, offset, a);
    var right := OffsetLimit(rows, offset + a, b);
    var both := OffsetLimit(rows, offset, a + b);
    if offset + a < |rows| {
      assert |left| == a;
    }
    assert |left + right| == |both|;
    forall i | 0 <= i < |both|
      ensures (left + right)[i] == both[i]
    {
      if i >= |left| {
        assert |left| == a;
        assert right[i - a] == rows[offset + a + (i - a)];
      }
    }
  }

  /** Every row lies on exactly the page numbered `i / limit`, at position `i % limit`. */
  lemma PageOfRow<T>(rows: seq<T>, limit: nat, i: nat)
    requires 0 < limit && i < |rows|
    ensures var page := OffsetLimit(rows, (i / limit) * limit, limit);
            i % limit < |page| && page[i % limit] == rows[i]
  {
    assert (i / limit) * limit + i % limit == i;
  }

  /** The rows without the one at index `i`, as deleting that row leaves them. */
  function RemoveAt<T>(rows: seq<T>, i: nat): (r: seq<T>)
    requires i < |rows|
    ensures |r| == |rows| - 1
    ensures multiset(r) == multiset(rows) - multiset{rows[i]}
    ensures forall j :: 0 <= j < i ==> r[j] == rows[j]
    ensures forall j :: i <= j < |r| ==> r[j] == rows[j + 1]
  {
    var front, back := rows[..i], rows[i + 1..];
    assert rows == front + [rows[i]] + back;
    assert multiset(rows) == multiset(front) + multiset{rows[i]} + multiset(back);
    assert multiset(front + back) == multiset(front) + multiset(back);
    front + back
  }

  /** Which rows survive a removal: every row at another index, and only those. */
  lemma RemoveAtMembers<T>(rows: seq<T>, i: nat, x: T)
    requires i < |rows|
    ensures x in RemoveAt(rows, i) <==> exists j :: 0 <= j < |rows| && j != i && rows[j] == x
  {
    var r := RemoveAt(rows, i);
    if x in r {
      var k :| 0 <= k < |r| && r[k] == x;
      var j := if k < i then k else k + 1;
      assert rows[j] == x;
    }
    if exists j :: 0 <= j < |rows| && j != i && rows[j] == x {
      var j :| 0 <= j < |rows| && j != i && rows[j] == x;
      var k := if j < i then j else j - 1;
      assert r[k] == x;
    }
  }

  /** Removing a row keeps keys distinct. */
  lemma RemoveAtKeepsDistinct<T, K>(rows: seq<T>, i: nat, key: T -> K)
    requires i < |rows|
    requires DistinctKeys(rows, key)
    ensures DistinctKeys(RemoveAt(rows, i), key)
  {
    var r := RemoveAt(rows, i);
    forall a, b | 0 <= a < b < |r| ensures key(r[a]) != key(r[b]) {
      var a' := if a < i then a else a + 1;
      var b' := if b < i then b else b + 1;
      assert r[a] == rows[a'] && r[b] == rows[b'];
    }
  }

  /** Replacing one row by another whose key no other row holds keeps keys distinct. */
  lemma UpdateAtKeepsDistinct<T, K>(rows: seq<T>, i: nat, x: T, key: T -> K)
    requires i < |rows|
    requires DistinctKeys(rows, key)
    requires forall j :: 0 <= j < |rows| && j != i ==> key(rows[j]) != key(x)
    ensures DistinctKeys(rows[i := x], key)
  {
    var r := rows[i := x];
    forall a, b | 0 <= a < b < |r| ensures key(r[a]) != key(r[b]) {
      if a != i && b != i {
        assert r[a] == rows[a] && r[b] == rows[b];
      }
    }
  }
}

=== FILE: scenario.dfy ===
/** One user's life through every service, end to end: register, log in, resolve
    a token signed for the username, create a task, list it, complete it, then delete the user
    and find the task and the session gone with them. Each step names the exact
    store it leaves behind; the hash and the token codec stay abstract. */
module Scenario {
  import opened Outcomes
  import opened Models
  import opened Passwords
  import opened Tokens
  import opened TaskSchemas
  import opened UserSchemas
  import opened TaskService
  import opened UserService
  import opened AuthService

  const Signup: UserCreate := UserCreate("Ann", None, "ann", "secret1")
  const Report: TaskCreate := TaskCreate("Write report", None, New)
  const Complete: TaskUpdate := TaskUpdate(Unset, Unset, Set(Some(Completed)))

  /** The claims the scenario signs: the username as subject, nothing else. No
      route of the service issues a token, so this stands for a caller that
      signs only `{"sub": username}`. */
  const Session: Claims := map[Sub := Str("ann")]

  /** The row registration stores, under id 1. */
  function Ann(h: Hasher): User
  {
    User(1, "Ann", None, "ann", h.hash("secret1"))
  }

  /** The task created under id 1, and the same task once completed. */
  const Draft: Task := Task(1, "Write report", None, New, 1)
  const Done: Task := Task(1, "Write report", None, Completed, 1)

  /** The token issued at time 0 with the default lifetime. */
  function SessionToken(k: Codec): string
  {
    CreateAccessToken(k, Session, None, 0)
  }

  /** Register on an empty database, log in, and resolve a token signed for the
      username a minute later. */
  lemma RegisterLoginResolve(h: Hasher, k: Codec)
    requires Sound(h) && Lawful(k)
    ensures RegisterUser(h, Empty, Signup, 1) == Ok((Store([Ann(h)], []), Ann(h)))
    ensures AuthenticateUser(h, Store([Ann(h)], []), "ann", "secret1") == Ok(Ann(h))
    ensures AuthenticateUser(h, Store([Ann(h)], []), "bob", "secret1") == Err(BadLogin)
    ensures GetCurrentUser(k, Store([Ann(h)], []), SessionToken(k), 60) == Ok(Ann(h))
  {
    assert Usernames(Empty) == {};
    assert Usernames(Store([Ann(h)], [])) == {"ann"};
    IssuedTokenResolves(h, k, Store([Ann(h)], []), "ann", "secret1", Session, None, 0, 60);
  }

  /** Create a task and list it, with no status filter and with the label of a
      status it does not have. */
  lemma CreateAndList(h: Hasher)
    ensures FreshTaskId(Store([Ann(h)], []), 1)
    ensures CreateTask(Store([Ann(h)], []), Report, 1, 1) == Ok((Store([Ann(h)], [Draft]), Draft))
    ensures CreateTask(Store([Ann(h)], []), Report, 2, 1) == Err(NoSuchOwner(2))
    ensures GetUserTasks(Store([Ann(h)], [Draft]), 1, None) == Ok([Draft])
    ensures GetUserTasks(Store([Ann(h)], [Draft]), 1, Some("COMPLETED")) == Ok([])
  {
    assert Rows.Where([Draft], OwnerIs(1)) == [Draft];
    assert Rows.Where([Draft], StatusIs("COMPLETED")) == [];
  }

  /** Complete the task: only its status changes. */
  lemma CompleteTask(h: Hasher)
    ensures UpdateTask(Store([Ann(h)], [Draft]), 1, Complete, 1) == Ok((Store([Ann(h)], [Done]), Done))
  {
    assert Rows.FindFirst([Draft], Owned(1, 1)) == Some(0);
    assert [Draft][0 := Done] == [Done];
  }

  /** The completed task lists under its new status, and only for its owner. */
  lemma ListCompleted(h: Hasher)
    ensures GetUserTasks(Store([Ann(h)], [Done]), 1, Some("COMPLETED")) == Ok([Done])
    ensures GetUserTasks(Store([Ann(h)], [Done]), 2, None) == Ok([])
  {
    assert Rows.Where([Done], OwnerIs(1)) == [Done];
    assert Rows.Where([Done], StatusIs("COMPLETED")) == [Done];
    assert Rows.Where([Done], OwnerIs(2)) == [];
  }

  /** Delete the user: the cascade empties the database, the task reads as not
      found, and the still-unexpired session token meets the lookup's 404 as
      written and the credentials refusal as intended. */
  lemma DeleteAndStaleSession(h: Hasher, k: Codec)
    requires Lawful(k)
    ensures DeleteUser(Store([Ann(h)], [Done]), 1) == Ok(Empty)
    ensures GetTaskById(Empty, 1, 1) == Err(TaskNotFound)
    ensures GetCurrentUser(k, Empty, SessionToken(k), 120) == Err(UserNotFound)
    ensures ResolveSession(k, Empty, SessionToken(k), 120) == Err(CredentialsRejected)
  {
    assert Rows.Where([Done], NotOwnedBy(1)) == [];
    assert Usernames(Empty) == {};
    StaleTokenIsNotFound(k, Empty, Session, None, 0, 120);
  }
}

=== FILE: task_schemas.dfy ===
/** The task request and response shapes: `TaskCreate` (title required,
    description defaulting to None, status defaulting to NEW), the all-optional
    `TaskUpdate`, `TaskRead`, and `TaskStatusUpdate`. */
module TaskSchemas {
  import opened Outcomes
  import opened Models
  import opened Payloads

  datatype TaskCreate = TaskCreate(title: string, description: Option<string>, status: TaskStatus)

  function ParseTaskCreate(p: Payload): (r: Result<TaskCreate>)
    ensures r.Ok? ==> "title" in p && p["title"] == JStr(r.value.title)
    ensures r.Ok? && "description" !in p ==> r.value.description == None
    ensures r.Ok? && "description" in p ==> p["description"] == OptJson(r.value.description)
    ensures r.Ok? && "status" !in p ==> r.value.status == DefaultStatus
    ensures r.Ok? && "status" in p ==> p["status"] == JStr(r.value.status.Value())
    ensures r.Ok? <==>
              && "title" in p && p["title"].JStr?
              && ("description" in p ==> !p["description"].JOther?)
              && ("status" in p ==> p["status"].JStr? && StatusFromValue(p["status"].s).Some?)
    ensures "title" !in p ==> r.Err? && r.error.Invalid? && FieldError("title", Missing) in r.error.errors
    ensures r.Err? ==> r.error.Invalid? && |r.error.errors| > 0
  {
    var title := RequiredStr(p, "title");
    var description := OptionalStr(p, "description");
    var status := StatusOr(p, "status", DefaultStatus);
    if title.Pass? && description.Pass? && status.Pass? then
      Ok(TaskCreate(title.value, description.value, status.value))
    else
      Err(Invalid(Errors(title) + Errors(description) + Errors(status)))
  }

  /** `model_dump()` of a `TaskCreate`, as JSON. */
  function DumpTaskCreate(c: TaskCreate): Payload
  {
    map["title" := JStr(c.title), "description" := OptJson(c.description), "status" := JStr(c.status.Value())]
  }

  lemma TaskCreateRoundTrip(c: TaskCreate)
    ensures ParseTaskCreate(DumpTaskCreate(c)) == Ok(c)
  {
    StatusSpellings(c.status, c.status);
  }

  /** A payload holding only a title gets no description and status NEW. */
  lemma TaskCreateDefaults(title: string)
    ensures ParseTaskCreate(map["title" := JStr(title)]) == Ok(TaskCreate(title, None, New))
  {
  }

  /** Keys the schema does not declare, such as a `user_id`, are ignored. */
  lemma TaskCreateIgnoresOtherKeys(p: Payload, key: string, v: Json)
    requires key != "title" && key != "description" && key != "status"
    ensures ParseTaskCreate(p[key := v]) == ParseTaskCreate(p)
  {
    var q := p[key := v];
    assert RequiredStr(q, "title") == RequiredStr(p, "title");
    assert OptionalStr(q, "description") == OptionalStr(p, "description");
    assert StatusOr(q, "status", DefaultStatus) == StatusOr(p, "status", DefaultStatus);
  }

  /** Every field optional and defaulting to None; `model_dump(exclude_unset=True)`
      keeps exactly the fields the payload gave, so each is a `Patch`. */
  datatype TaskUpdate = TaskUpdate(
    title: Patch<Option<string>>,
    description: Patch<Option<string>>,
    status: Patch<Option<TaskStatus>>)

  const NoChanges: TaskUpdate := TaskUpdate(Unset, Unset, Unset)

  function ParseTaskUpdate(p: Payload): (r: Result<TaskUpdate>)
    ensures r.Ok? ==> (r.value.title.Unset? <==> "title" !in p)
    ensures r.Ok? ==> (r.value.description.Unset? <==> "description" !in p)
    ensures r.Ok? ==> (r.value.status.Unset? <==> "status" !in p)
    ensures r.Ok? && "title" in p ==> p["title"] == OptJson(r.value.title.value)
    ensures r.Ok? && "description" in p ==> p["description"] == OptJson(r.value.description.value)
    ensures r.Ok? && "status" in p ==>
              && (p["status"] == JNull <==> r.value.status.value.None?)
              && (r.value.status.value.Some? ==> p["status"] == JStr(r.value.status.value.value.Value()))
    ensures r.Ok? <==>
              && ("title" in p ==> !p["title"].JOther?)
              && ("description" in p ==> !p["description"].JOther?)
              && ("status" in p ==> p["status"] == JNull || (p["status"].JStr? && StatusFromValue(p["status"].s).Some?))
    ensures r.Err? ==> r.error.Invalid? && |r.error.errors| > 0
  {
    var title := PatchStr(p, "title");
    var description := PatchStr(p, "description");
    var status := PatchStatus(p, "status");
    if title.Pass? && description.Pass? && status.Pass? then
      Ok(TaskUpdate(title.value, description.value, status.value))
    else
      Err(Invalid(Errors(title) + Errors(description) + Errors(status)))
  }

  /** `model_dump(exclude_unset=True)` of a `TaskUpdate`, as JSON. */
  function DumpTaskUpdate(u: TaskUpdate): Payload
  {
    PutPatch(PutPatch(PutPatch(map[], "title", PatchJson(u.title)),
                      "description", PatchJson(u.description)),
             "status", PatchStatusJson(u.status))
  }

  lemma TaskUpdateRoundTrip(u: TaskUpdate)
    ensures ParseTaskUpdate(DumpTaskUpdate(u)) == Ok(u)
  {
    var p := DumpTaskUpdate(u);
    match u.status
    case Set(Some(st)) => StatusSpellings(st, st);
    case _ =>
  }

  /** An empty body is the update that changes nothing. */
  lemma EmptyBodyIsNoChanges()
    ensures ParseTaskUpdate(map[]) == Ok(NoChanges)
  {
  }

  /** The response shape: the stored columns, `id` and `user_id` included. */
  datatype TaskRead = TaskRead(id: int, userId: int, title: string, description: Option<string>, status: TaskStatus)

  function ToTaskRead(t: Task): TaskRead
  {
    TaskRead(t.id, t.userId, t.title, t.description, t.status)
  }

  function FromTaskRead(r: TaskRead): Task
  {
    Task(r.id, r.title, r.description, r.status, r.userId)
  }

  /** A `TaskRead` loses nothing of the row it was read from. */
  lemma TaskReadKeepsRow(t: Task)
    ensures FromTaskRead(ToTaskRead(t)) == t
    ensures ToTaskRead(t).id == t.id && ToTaskRead(t).userId == t.userId
  {
  }

  datatype TaskStatusUpdate = TaskStatusUpdate(status: TaskStatus)

  function ParseTaskStatusUpdate(p: Payload): (r: Result<TaskStatusUpdate>)
    ensures "status" !in p ==> r == Err(Invalid([FieldError("status", Missing)]))
    ensures r.Ok? <==> "status" in p && p["status"].JStr? && StatusFromValue(p["status"].s).Some?
    ensures r.Ok? ==> p["status"] == JStr(r.value.status.Value())
  {
    match RequiredStatus(p, "status")
    case Pass(st) => Ok(TaskStatusUpdate(st))
    case Reject(e) => Err(Invalid([e]))
  }
}

=== FILE: task_service.dfy ===
/** The task service. Every read, update and delete filters on the task id AND
    the caller's id, so a task owned by someone else is reported exactly like a
    task that does not exist. */
module TaskService {
  import opened Outcomes
  import opened Models
  import opened Rows
  import opened TaskSchemas

  /** The filter `Task.id == task_id, Task.user_id == user_id`. */
  function Owned(taskId: int, userId: int): Task -> bool
  {
    (t: Task) => t.id == taskId && t.userId == userId
  }

  /** The caller sees task `taskId`: some row has that id and the caller as owner. */
  predicate Visible(s: Store, taskId: int, userId: int)
  {
    exists t :: t in s.tasks && t.id == taskId && t.userId == userId
  }

  lemma VisibleFound(s: Store, taskId: int, userId: int)
    ensures Visible(s, taskId, userId) <==> FindFirst(s.tasks, Owned(taskId, userId)).Some?
  {
    if Visible(s, taskId, userId) {
      var t :| t in s.tasks && t.id == taskId && t.userId == userId;
      var j :| 0 <= j < |s.tasks| && s.tasks[j] == t;
      assert Owned(taskId, userId)(s.tasks[j]);
    }
  }

  function GetTaskById(s: Store, taskId: int, userId: int): (r: Result<Task>)
    ensures r.Ok? <==> Visible(s, taskId, userId)
    ensures r.Ok? ==> r.value in s.tasks && r.value.id == taskId && r.value.userId == userId
    ensures r.Err? ==> r.error == TaskNotFound
  {
    VisibleFound(s, taskId, userId);
    match FindFirst(s.tasks, Owned(taskId, userId))
    case None => Err(TaskNotFound)
    case Some(i) => Ok(s.tasks[i])
  }

  /** The values a PostgreSQL `bigint` holds, to which OFFSET and LIMIT are coerced. */
  predicate InBigint(n: int)
  {
    -0x8000_0000_0000_0000 <= n < 0x8000_0000_0000_0000
  }

  /** `.offset(skip).limit(limit).all()` over every task, whoever owns it.
      PostgreSQL refuses, when it plans the query, an OFFSET or LIMIT outside
      the `bigint` range; when it runs it, a negative OFFSET and then a negative
      LIMIT. */
  function GetTasks(s: Store, skip: int := 0, limit: int := 10): (r: Result<seq<Task>>)
    ensures r.Err? <==> !InBigint(skip) || !InBigint(limit) || skip < 0 || limit < 0
    ensures !InBigint(skip) || !InBigint(limit) ==> r == Err(BigintOutOfRange)
    ensures InBigint(skip) && InBigint(limit) && skip < 0 ==> r == Err(NegativeWindow("OFFSET"))
    ensures InBigint(skip) && InBigint(limit) && 0 <= skip && limit < 0 ==> r == Err(NegativeWindow("LIMIT"))
    ensures r.Ok? ==> |r.value| <= limit
    ensures r.Ok? ==> forall i :: 0 <= i < |r.value| ==> skip + i < |s.tasks| && r.value[i] == s.tasks[skip + i]
    ensures r.Ok? && skip < |s.tasks| ==> |r.value| == if limit < |s.tasks| - skip then limit else |s.tasks| - skip
  {
    if !InBigint(skip) || !InBigint(limit) then Err(BigintOutOfRange)
    else if skip < 0 then Err(NegativeWindow("OFFSET"))
    else if limit < 0 then Err(NegativeWindow("LIMIT"))
    else Ok(OffsetLimit(s.tasks, skip, limit))
  }

  /** Over the model's one fixed scan order, the page at `skip` followed by the
      page after it is the page spanning both, for windows PostgreSQL accepts. */
  lemma TaskPagesConcatenate(s: Store, skip: nat, a: nat, b: nat)
    requires InBigint(skip + a + b)
    ensures GetTasks(s, skip, a).value + GetTasks(s, skip + a, b).value == GetTasks(s, skip, a + b).value
  {
    PagesConcatenate(s.tasks, skip, a, b);
  }

  /** A status argument the filter can send: `if status:` sends nothing for None
      or the empty string, and the `taskstatus` type admits only the labels. */
  predicate StatusAccepted(status: Option<string>)
  {
    status.None? || status.value == "" || StatusFromLabel(status.value).Some?
  }

  /** Whether an accepted status argument keeps task `t`: the column holds the
      member's label and is compared with the given string. */
  predicate StatusKept(status: Option<string>, t: Task)
  {
    status.None? || status.value == "" || t.status.Label() == status.value
  }

  /** The filter `Task.user_id == user_id`. */
  function OwnerIs(userId: int): Task -> bool
  {
    (t: Task) => t.userId == userId
  }

  /** The filter `Task.status == status`. */
  function StatusIs(status: string): Task -> bool
  {
    (t: Task) => t.status.Label() == status
  }

  /** `get_user_tasks`: the caller's tasks, narrowed to one status when a non-empty
      status string is given; a string that is no label is refused by the database. */
  function GetUserTasks(s: Store, userId: int, status: Option<string>): (r: Result<seq<Task>>)
    ensures r.Ok? <==> StatusAccepted(status)
    ensures r.Err? ==> r.error == NotAnEnumLabel(status.value)
    ensures r.Ok? ==> forall t :: t in r.value ==> t in s.tasks && t.userId == userId && StatusKept(status, t)
    ensures r.Ok? ==> forall t :: multiset(r.value)[t] == if t.userId == userId && StatusKept(status, t) then multiset(s.tasks)[t] else 0
  {
    var owned := Where(s.tasks, OwnerIs(userId));
    if status.Some? && status.value != "" then
      if StatusFromLabel(status.value).None? then Err(NotAnEnumLabel(status.value))
      else Ok(Where(owned, StatusIs(status.value)))
    else
      Ok(owned)
  }

  /** Every row the listing could return is in it: listing and the task table agree. */
  lemma UserTasksComplete(s: Store, userId: int, status: Option<string>, t: Task)
    requires StatusAccepted(status)
    ensures t in GetUserTasks(s, userId, status).value <==> t in s.tasks && t.userId == userId && StatusKept(status, t)
  {
    var r := GetUserTasks(s, userId, status).value;
    assert t in r <==> multiset(r)[t] > 0;
  }

  /** None and "" both list every task of the caller. */
  lemma NoStatusFilter(s: Store, userId: int)
    ensures GetUserTasks(s, userId, None) == GetUserTasks(s, userId, Some(""))
            == Ok(Where(s.tasks, OwnerIs(userId)))
  {
  }

  /** Filtering by a member's label lists the caller's tasks in that status, in table order. */
  lemma StatusFilterByLabel(s: Store, userId: int, st: TaskStatus)
    ensures GetUserTasks(s, userId, Some(st.Label()))
            == Ok(Where(s.tasks, (t: Task) => t.userId == userId && t.status == st))
  {
    var p := OwnerIs(userId);
    var q := StatusIs(st.Label());
    var both := (t: Task) => t.userId == userId && t.status == st;
    StatusSpellings(st, st);
    assert GetUserTasks(s, userId, Some(st.Label())) == Ok(Where(Where(s.tasks, p), q));
    forall t: Task ensures both(t) == (p(t) && q(t)) {
      StatusSpellings(t.status, st);
    }
    WhereWhere(s.tasks, p, q, both);
  }

  /** The schema's status values ('New', 'In Progress', 'Completed') are not labels
      of the `taskstatus` type, so filtering by one of them fails in the database,
      whatever the table holds. */
  lemma StatusFilterByValueFails(s: Store, userId: int, st: TaskStatus)
    ensures GetUserTasks(s, userId, Some(st.Value())) == Err(NotAnEnumLabel(st.Value()))
  {
    StatusSpellings(st, st);
  }

  /** Two callers' listings never share a task. */
  lemma UserTasksDisjoint(s: Store, a: int, b: int, fa: Option<string>, fb: Option<string>, t: Task)
    requires a != b
    ensures GetUserTasks(s, a, fa).Ok? && GetUserTasks(s, b, fb).Ok? ==>
              !(t in GetUserTasks(s, a, fa).value && t in GetUserTasks(s, b, fb).value)
  {
  }

  /** The row `Task(**task_data.model_dump(), user_id=user_id)` inserts under the id
      the table's sequence hands out; the owner foreign key refuses the commit when
      no user holds `userId`. */
  function CreateTask(s: Store, data: TaskCreate, userId: int, newId: int): (r: Result<(Store, Task)>)
    requires FreshTaskId(s, newId)
    ensures r.Err? <==> userId !in UserIds(s)
    ensures r.Err? ==> r.error == NoSuchOwner(userId)
    ensures r.Ok? ==> r.value.1 == Task(newId, data.title, data.description, data.status, userId)
    ensures r.Ok? ==> r.value.0.users == s.users
    ensures r.Ok? ==>
              && |r.value.0.tasks| == |s.tasks| + 1
              && r.value.0.tasks[..|s.tasks|] == s.tasks
              && r.value.0.tasks[|s.tasks|] == r.value.1
  {
    if userId !in UserIds(s) then Err(NoSuchOwner(userId))
    else
      var t := Task(newId, data.title, data.description, data.status, userId);
      Ok((s.(tasks := s.tasks + [t]), t))
  }

  /** A created task is what its owner then reads back, and no one else can read it. */
  lemma CreateThenGet(s: Store, data: TaskCreate, userId: int, newId: int, other: int)
    requires FreshTaskId(s, newId)
    requires userId in UserIds(s)
    requires other != userId
    ensures var (s', t) := CreateTask(s, data, userId, newId).value;
            GetTaskById(s', newId, userId) == Ok(t) && GetTaskById(s', newId, other) == Err(TaskNotFound)
  {
    var (s', t) := CreateTask(s, data, userId, newId).value;
    forall j | 0 <= j < |s.tasks| ensures s.tasks[j].id != newId {
      assert s.tasks[j] in s.tasks;
    }
    assert Owned(newId, userId)(s'.tasks[|s.tasks|]);
    assert forall u :: u in s'.tasks ==> u in s.tasks || u == t;
  }

  function UpdateTask(s: Store, taskId: int, data: TaskUpdate, userId: int): (r: Result<(Store, Task)>)
    ensures !Visible(s, taskId, userId) ==> r == Err(TaskNotFound)
    ensures Visible(s, taskId, userId) ==>
              (r.Err? <==> data.title == Set(None) || data.status == Set(None))
    ensures Visible(s, taskId, userId) && data.title == Set(None) ==> r == Err(NullColumn("title"))
    ensures Visible(s, taskId, userId) && data.title != Set(None) && data.status == Set(None) ==>
              r == Err(NullColumn("status"))
    ensures r.Ok? ==>
              var (s', t') := r.value;
              var t := GetTaskById(s, taskId, userId).value;
              && t'.id == taskId && t'.userId == userId
              && t'.title == (if data.title.Set? then data.title.value.value else t.title)
              && t'.description == (if data.description.Set? then data.description.value else t.description)
              && t'.status == (if data.status.Set? then data.status.value.value else t.status)
              && s'.users == s.users
              && |s'.tasks| == |s.tasks|
              && t' in s'.tasks
    ensures r.Ok? ==>
              forall j :: 0 <= j < |s.tasks| && !Owned(taskId, userId)(s.tasks[j]) ==>
                r.value.0.tasks[j] == s.tasks[j]
  {
    VisibleFound(s, taskId, userId);
    match FindFirst(s.tasks, Owned(taskId, userId))
    case None => Err(TaskNotFound)
    case Some(i) =>
      var t := s.tasks[i];
      var title := AssignNonNull(data.title, t.title);
      var status := AssignNonNull(data.status, t.status);
      if title.None? then Err(NullColumn("title"))
      else if status.None? then Err(NullColumn("status"))
      else
        var t' := t.(title := title.value, description := Apply(data.description, t.description), status := status.value);
        assert s.tasks[i := t'][i] == t';
        Ok((s.(tasks := s.tasks[i := t']), t'))
  }

  /** An update that sets nothing leaves the store as it was. */
  lemma NoChangesChangesNothing(s: Store, taskId: int, userId: int)
    requires Visible(s, taskId, userId)
    ensures UpdateTask(s, taskId, NoChanges, userId) == Ok((s, GetTaskById(s, taskId, userId).value))
  {
    VisibleFound(s, taskId, userId);
    var i := FindFirst(s.tasks, Owned(taskId, userId)).value;
    assert s.tasks[i := s.tasks[i]] == s.tasks;
  }

  /** Applying the same update a second time changes nothing more. */
  lemma UpdateIdempotent(s: Store, taskId: int, data: TaskUpdate, userId: int)
    requires UpdateTask(s, taskId, data, userId).Ok?
    ensures var (s', t') := UpdateTask(s, taskId, data, userId).value;
            UpdateTask(s', taskId, data, userId) == Ok((s', t'))
  {
    VisibleFound(s, taskId, userId);
    var i := FindFirst(s.tasks, Owned(taskId, userId)).value;
    var (s', t') := UpdateTask(s, taskId, data, userId).value;
    assert s'.tasks == s.tasks[i := t'];
    var p := Owned(taskId, userId);
    assert p(s'.tasks[i]);
    assert forall j :: 0 <= j < i ==> s'.tasks[j] == s.tasks[j] && !p(s'.tasks[j]);
    assert FindFirst(s'.tasks, p) == Some(i);
    assert s'.tasks[i := t'] == s'.tasks;
  }

  function DeleteTask(s: Store, taskId: int, userId: int): (r: Result<Store>)
    ensures r.Err? <==> !Visible(s, taskId, userId)
    ensures r.Err? ==> r.error == TaskNotFound
    ensures r.Ok? ==> r.value.users == s.users && |r.value.tasks| == |s.tasks| - 1
    ensures r.Ok? ==> multiset(r.value.tasks) == multiset(s.tasks) - multiset{GetTaskById(s, taskId, userId).value}
  {
    VisibleFound(s, taskId, userId);
    match FindFirst(s.tasks, Owned(taskId, userId))
    case None => Err(TaskNotFound)
    case Some(i) => Ok(s.(tasks := RemoveAt(s.tasks, i)))
  }

  /** With unique ids, a delete removes exactly the row with that id: every other
      row stays, and the id then reads as not found for everyone. */
  lemma DeleteRemovesExactlyOne(s: Store, taskId: int, userId: int, anyone: int)
    requires KeysUnique(s)
    requires Visible(s, taskId, userId)
    ensures var s' := DeleteTask(s, taskId, userId).value;
            && (forall t :: t in s'.tasks <==> t in s.tasks && t.id != taskId)
            && GetTaskById(s', taskId, anyone) == Err(TaskNotFound)
  {
    VisibleFound(s, taskId, userId);
    var i := FindFirst(s.tasks, Owned(taskId, userId)).value;
    var s' := DeleteTask(s, taskId, userId).value;
    assert s'.tasks == RemoveAt(s.tasks, i);
    assert s.tasks[i].id == taskId;
    forall t ensures t in s'.tasks <==> t in s.tasks && t.id != taskId {
      RemoveAtMembers(s.tasks, i, t);
      if t in s'.tasks {
        var j :| 0 <= j < |s.tasks| && j != i && s.tasks[j] == t;
        assert j < i ==> s.tasks[j].id != s.tasks[i].id;
        assert i < j ==> s.tasks[i].id != s.tasks[j].id;
      }
      if t in s.tasks && t.id != taskId {
        var j :| 0 <= j < |s.tasks| && s.tasks[j] == t;
        assert j != i;
      }
    }
  }

  /** A task owned by someone else answers every task operation exactly as a
      missing id does, and nothing is changed. */
  lemma ForeignTaskLooksMissing(s: Store, taskId: int, owner: int, caller: int, missingId: int, data: TaskUpdate)
    requires KeysUnique(s)
    requires Visible(s, taskId, owner) && caller != owner
    requires missingId !in TaskIds(s)
    ensures GetTaskById(s, taskId, caller) == GetTaskById(s, missingId, caller) == Err(TaskNotFound)
    ensures UpdateTask(s, taskId, data, caller) == UpdateTask(s, missingId, data, caller) == Err(TaskNotFound)
    ensures DeleteTask(s, taskId, caller) == DeleteTask(s, missingId, caller) == Err(TaskNotFound)
  {
  }

  /** With the foreign key enforced, every successful create keeps the constraints. */
  lemma CreateTaskPreservesValid(s: Store, data: TaskCreate, userId: int, newId: int)
    requires Valid(s) && FreshTaskId(s, newId)
    requires CreateTask(s, data, userId, newId).Ok?
    ensures Valid(CreateTask(s, data, userId, newId).value.0)
  {
    var s' := CreateTask(s, data, userId, newId).value.0;
    assert UserIds(s') == UserIds(s);
    forall i, j | 0 <= i < j < |s'.tasks| ensures s'.tasks[i].id != s'.tasks[j].id {
      if j == |s.tasks| {
        assert s.tasks[i] in s.tasks;
      }
    }
  }

  /** The title's 50-character column bound is checked by nothing before the
      database: the created row fits exactly when the given title does. */
  lemma CreateTaskFitsColumns(s: Store, data: TaskCreate, userId: int, newId: int)
    requires FitsColumns(s) && FreshTaskId(s, newId)
    requires userId in UserIds(s)
    ensures FitsColumns(CreateTask(s, data, userId, newId).value.0) <==> |data.title| <= TitleMax
  {
    var (s', t) := CreateTask(s, data, userId, newId).value;
    assert t in s'.tasks;
    assert forall u :: u in s'.tasks ==> u in s.tasks || u == t;
  }

  lemma UpdateTaskPreservesValid(s: Store, taskId: int, data: TaskUpdate, userId: int)
    requires Valid(s)
    requires UpdateTask(s, taskId, data, userId).Ok?
    ensures Valid(UpdateTask(s, taskId, data, userId).value.0)
  {
    VisibleFound(s, taskId, userId);
    var i := FindFirst(s.tasks, Owned(taskId, userId)).value;
    var s' := UpdateTask(s, taskId, data, userId).value.0;
    assert forall j :: 0 <= j < |s.tasks| ==> s'.tasks[j].id == s.tasks[j].id && s'.tasks[j].userId == s.tasks[j].userId;
    assert UserIds(s') == UserIds(s);
    forall t | t in s'.tasks ensures t.userId in UserIds(s') {
      var j :| 0 <= j < |s'.tasks| && s'.tasks[j] == t;
      assert s.tasks[j] in s.tasks;
    }
  }

  lemma DeleteTaskPreservesValid(s: Store, taskId: int, userId: int)
    requires Valid(s)
    requires DeleteTask(s, taskId, userId).Ok?
    ensures Valid(DeleteTask(s, taskId, userId).value)
  {
    VisibleFound(s, taskId, userId);
    var i := FindFirst(s.tasks, Owned(taskId, userId)).value;
    var s' := DeleteTask(s, taskId, userId).value;
    assert s'.tasks == RemoveAt(s.tasks, i) && s'.users == s.users;
    var key := (t: Task) => t.id;
    assert DistinctKeys(s.tasks, key);
    RemoveAtKeepsDistinct(s.tasks, i, key);
    assert DistinctKeys(s'.tasks, key);
    assert UserIds(s') == UserIds(s);
    forall t | t in s'.tasks ensures t in s.tasks {
      RemoveAtMembers(s.tasks, i, t);
    }
  }
}

=== FILE: tokens.dfy ===
/** Access tokens: the claims `create_access_token` signs and what decoding a
    token yields. JWT serialisation and HS256 signing (section 3.2 of RFC 7518)
    are not modelled: a `Codec` is the pair of functions `jwt.encode` and
    `jwt.decode` compute under the process secret, and `Lawful` states the
    behaviour the model relies on. Times are whole seconds since the epoch. */
module Tokens {
  import opened Outcomes

  /** ACCESS_TOKEN_EXPIRE_MINUTES. */
  const AccessTokenExpireMinutes: nat := 30

  /** The default lifetime, in seconds. */
  const DefaultLifetime: nat := AccessTokenExpireMinutes * 60

  /** The subject claim (section 4.1.2 of RFC 7519). */
  const Sub: string := "sub"

  /** The expiration-time claim (section 4.1.4 of RFC 7519). */
  const Exp: string := "exp"

  datatype ClaimValue = Str(s: string) | Num(n: int)

  type Claims = map<string, ClaimValue>

  /** What `jwt.decode` gives: the payload, `ExpiredSignatureError`, or another
      `InvalidTokenError`. */
  datatype Decoded = Payload(claims: Claims) | ExpiredSignature | InvalidToken

  datatype Codec = Codec(encode: Claims -> string, decode: (string, int) -> Decoded)

  /** The registered claims (section 4.1 of RFC 7519) that `jwt.decode` checks
      besides `exp` and `sub`: a future `nbf` or `iat`, any `aud` when no audience
      is requested, and a non-string `jti` are refused. */
  const OtherCheckedClaims: set<string> := {"nbf", "iat", "aud", "jti"}

  /** Claims that carry none of those; the token lemmas assume it of the data
      signed. A caller that signs only `{"sub": username}` meets it. */
  predicate NoOtherCheckedClaims(c: Claims)
  {
    c.Keys !! OtherCheckedClaims
  }

  /** The claim sets the codec law speaks for: no other checked claim, and an
      integer `exp` if there is one. */
  predicate Plain(c: Claims)
  {
    NoOtherCheckedClaims(c) && (Exp in c ==> c[Exp].Num?)
  }

  /** Decoding, at time `now`, a token this process signed over plain claims: an
      `exp` at or before `now` has expired (no leeway), and a subject that is not
      a string is refused. */
  function Validate(c: Claims, now: int): Decoded
  {
    if Exp in c && c[Exp].Num? && c[Exp].n <= now then ExpiredSignature
    else if Sub in c && !c[Sub].Str? then InvalidToken
    else Payload(c)
  }

  /** The codec decodes its own tokens over plain claims by `Validate`, and every
      string it never produced (another key's signature, a truncated or foreign
      string) as invalid. */
  ghost predicate Lawful(k: Codec)
  {
    && (forall c, now :: Plain(c) ==> k.decode(k.encode(c), now) == Validate(c, now))
    && (forall t, now :: (forall c :: k.encode(c) != t) ==> k.decode(t, now) == InvalidToken)
  }

  /** The expiry instant: `if expires_delta:` is false for None and for a zero
      timedelta, and both fall back to the default lifetime. So no token expires
      at the instant it is issued, and only a negative delta issues one already
      expired. */
  function Expiry(delta: Option<int>, now: int): (e: int)
    ensures e != now
    ensures e > now <==> !(delta.Some? && delta.value < 0)
    ensures delta.None? || delta == Some(0) ==> e == now + DefaultLifetime
    ensures delta.Some? && delta.value != 0 ==> e - now == delta.value
  {
    if delta.Some? && delta.value != 0 then now + delta.value
    else now + DefaultLifetime
  }

  /** The claims `create_access_token` signs: a copy of `data` with `exp` added
      or overwritten. */
  function IssueClaims(data: Claims, delta: Option<int>, now: int): (c: Claims)
    ensures c.Keys == data.Keys + {Exp}
    ensures forall key :: key in data && key != Exp ==> c[key] == data[key]
    ensures c[Exp] == Num(Expiry(delta, now))
    ensures Plain(c) <==> NoOtherCheckedClaims(data)
  {
    data[Exp := Num(Expiry(delta, now))]
  }

  /** `create_access_token`: under a lawful codec the token decodes, at every
      instant, as its issued claims validate then. */
  function CreateAccessToken(k: Codec, data: Claims, delta: Option<int>, now: int): (token: string)
    ensures Lawful(k) && NoOtherCheckedClaims(data) ==>
              forall t :: k.decode(token, t) == Validate(IssueClaims(data, delta, now), t)
  {
    k.encode(IssueClaims(data, delta, now))
  }

  /** A token reports expired from its expiry on; before that it decodes to the
      claims it was issued with, unless its subject is not a string. */
  lemma IssuedTokenDecodes(k: Codec, data: Claims, delta: Option<int>, now: int, t: int)
    requires Lawful(k) && NoOtherCheckedClaims(data)
    ensures t >= Expiry(delta, now) ==>
              k.decode(CreateAccessToken(k, data, delta, now), t) == ExpiredSignature
    ensures t < Expiry(delta, now) && (Sub in data ==> data[Sub].Str?) ==>
              k.decode(CreateAccessToken(k, data, delta, now), t) == Payload(IssueClaims(data, delta, now))
    ensures t < Expiry(delta, now) && Sub in data && !data[Sub].Str? ==>
              k.decode(CreateAccessToken(k, data, delta, now), t) == InvalidToken
  {
    assert k.decode(CreateAccessToken(k, data, delta, now), t) == Validate(IssueClaims(data, delta, now), t);
  }

  /** A zero timedelta issues exactly the token no timedelta issues: one that
      lives for the default thirty minutes rather than one already expired. */
  lemma ZeroDeltaMeansDefault(k: Codec, data: Claims, now: int)
    requires Lawful(k) && NoOtherCheckedClaims(data)
    requires Sub in data ==> data[Sub].Str?
    ensures CreateAccessToken(k, data, Some(0), now) == CreateAccessToken(k, data, None, now)
    ensures k.decode(CreateAccessToken(k, data, Some(0), now), now + DefaultLifetime - 1).Payload?
    ensures k.decode(CreateAccessToken(k, data, Some(0), now), now + DefaultLifetime) == ExpiredSignature
  {
    IssuedTokenDecodes(k, data, Some(0), now, now + DefaultLifetime - 1);
    IssuedTokenDecodes(k, data, Some(0), now, now + DefaultLifetime);
  }

  /** A negative timedelta is truthy, so it is honoured and the token is born expired. */
  lemma NegativeDeltaIsExpired(k: Codec, data: Claims, delta: int, now: int)
    requires Lawful(k) && NoOtherCheckedClaims(data)
    requires delta < 0
    ensures k.decode(CreateAccessToken(k, data, Some(delta), now), now) == ExpiredSignature
  {
    IssuedTokenDecodes(k, data, Some(delta), now, now);
  }
}

=== FILE: user_schemas.dfy ===
/** The user request and response shapes of the users service: `UserCreate`
    (every name field required, `last_name` nullable, password of at least six
    characters), `UserUpdate` (three required-but-nullable names and an optional
    password), `UserRead` (no password) and `UserLogin`. */
module UserSchemas {
  import opened Outcomes
  import opened Models
  import opened Payloads

  /** Pydantic's `min_length` on passwords. */
  const PasswordMinLength: nat := 6

  /** The fields a new user is created from; both `UserCreate` schemas produce it. */
  datatype UserCreate = UserCreate(firstName: string, lastName: Option<string>, username: string, password: string)

  function ParseUserCreate(p: Payload): (r: Result<UserCreate>)
    ensures r.Ok? ==> "first_name" in p && p["first_name"] == JStr(r.value.firstName)
    ensures r.Ok? ==> "last_name" in p && p["last_name"] == OptJson(r.value.lastName)
    ensures r.Ok? ==> "username" in p && p["username"] == JStr(r.value.username)
    ensures r.Ok? ==> "password" in p && p["password"] == JStr(r.value.password)
    ensures r.Ok? ==> |r.value.password| >= PasswordMinLength
    ensures r.Ok? <==>
              && "first_name" in p && p["first_name"].JStr?
              && "last_name" in p && !p["last_name"].JOther?
              && "username" in p && p["username"].JStr?
              && "password" in p && p["password"].JStr? && |p["password"].s| >= PasswordMinLength
    ensures "last_name" !in p ==> r.Err?
    ensures r.Err? ==> r.error.Invalid? && |r.error.errors| > 0
  {
    var firstName := RequiredStr(p, "first_name");
    var lastName := NullableStr(p, "last_name");
    var username := RequiredStr(p, "username");
    var password := RequiredStrMin(p, "password", PasswordMinLength);
    if firstName.Pass? && lastName.Pass? && username.Pass? && password.Pass? then
      Ok(UserCreate(firstName.value, lastName.value, username.value, password.value))
    else
      Err(Invalid(Errors(firstName) + Errors(lastName) + Errors(username) + Errors(password)))
  }

  function DumpUserCreate(c: UserCreate): Payload
  {
    map["first_name" := JStr(c.firstName), "last_name" := OptJson(c.lastName),
        "username" := JStr(c.username), "password" := JStr(c.password)]
  }

  lemma UserCreateRoundTrip(c: UserCreate)
    requires |c.password| >= PasswordMinLength
    ensures ParseUserCreate(DumpUserCreate(c)) == Ok(c)
  {
  }

  /** A password shorter than six characters is refused, whatever else the payload holds. */
  lemma ShortPasswordRefused(p: Payload)
    requires "password" in p && p["password"].JStr? && |p["password"].s| < PasswordMinLength
    ensures ParseUserCreate(p).Err?
    ensures FieldError("password", TooShort(PasswordMinLength)) in ParseUserCreate(p).error.errors
  {
  }

  /** What `model_dump(exclude_unset=True)` of a `UserUpdate` can carry. */
  datatype UserUpdate = UserUpdate(
    firstName: Patch<Option<string>>,
    lastName: Patch<Option<string>>,
    username: Patch<Option<string>>,
    password: Patch<Option<string>>)

  /** The updates the schema lets through: the three names are always set
      (possibly to None) and a given password string has at least six characters. */
  predicate Admissible(u: UserUpdate)
  {
    && u.firstName.Set? && u.lastName.Set? && u.username.Set?
    && (u.password.Set? && u.password.value.Some? ==> |u.password.value.value| >= PasswordMinLength)
  }

  function ParseUserUpdate(p: Payload): (r: Result<UserUpdate>)
    ensures r.Ok? ==> Admissible(r.value)
    ensures r.Ok? ==> (r.value.password.Unset? <==> "password" !in p)
    ensures r.Ok? ==> "first_name" in p && p["first_name"] == OptJson(r.value.firstName.value)
    ensures r.Ok? ==> "last_name" in p && p["last_name"] == OptJson(r.value.lastName.value)
    ensures r.Ok? ==> "username" in p && p["username"] == OptJson(r.value.username.value)
    ensures r.Ok? && "password" in p ==> p["password"] == OptJson(r.value.password.value)
    ensures r.Ok? <==>
              && "first_name" in p && !p["first_name"].JOther?
              && "last_name" in p && !p["last_name"].JOther?
              && "username" in p && !p["username"].JOther?
              && ("password" in p ==> p["password"] == JNull || (p["password"].JStr? && |p["password"].s| >= PasswordMinLength))
    ensures "first_name" !in p || "last_name" !in p || "username" !in p ==> r.Err?
    ensures r.Err? ==> r.error.Invalid? && |r.error.errors| > 0
  {
    var firstName := NullableStr(p, "first_name");
    var lastName := NullableStr(p, "last_name");
    var username := NullableStr(p, "username");
    var password := PatchStrMin(p, "password", PasswordMinLength);
    if firstName.Pass? && lastName.Pass? && username.Pass? && password.Pass? then
      Ok(UserUpdate(Set(firstName.value), Set(lastName.value), Set(username.value), password.value))
    else
      Err(Invalid(Errors(firstName) + Errors(lastName) + Errors(username) + Errors(password)))
  }

  function DumpUserUpdate(u: UserUpdate): Payload
  {
    PutPatch(PutPatch(PutPatch(PutPatch(map[], "first_name", PatchJson(u.firstName)),
                               "last_name", PatchJson(u.lastName)),
                      "username", PatchJson(u.username)),
             "password", PatchJson(u.password))
  }

  /** The schema accepts exactly the admissible updates, and gives back the one dumped. */
  lemma UserUpdateRoundTrip(u: UserUpdate)
    requires Admissible(u)
    ensures ParseUserUpdate(DumpUserUpdate(u)) == Ok(u)
  {
  }

  /** The response shape: the row without its password column. */
  datatype UserRead = UserRead(id: int, firstName: string, lastName: Option<string>, username: string)

  function ToUserRead(u: User): UserRead
  {
    UserRead(u.id, u.firstName, u.lastName, u.username)
  }

  /** Nothing of the stored password reaches the response: rows that differ only
      in their password read the same, and every other column is carried. */
  lemma UserReadHidesPassword(u: User, other: string)
    ensures ToUserRead(u.(password := other)) == ToUserRead(u)
    ensures var r := ToUserRead(u);
            r.id == u.id && r.firstName == u.firstName && r.lastName == u.lastName && r.username == u.username
  {
  }

  datatype UserLogin = UserLogin(username: string, password: string)

  /** Both fields required; no length rule applies at login. */
  function ParseUserLogin(p: Payload): (r: Result<UserLogin>)
    ensures r.Ok? <==> "username" in p && p["username"].JStr? && "password" in p && p["password"].JStr?
    ensures r.Ok? ==> p["username"] == JStr(r.value.username) && p["password"] == JStr(r.value.password)
  {
    var username := RequiredStr(p, "username");
    var password := RequiredStr(p, "password");
    if username.Pass? && password.Pass? then Ok(UserLogin(username.value, password.value))
    else Err(Invalid(Errors(username) + Errors(password)))
  }
}

=== FILE: user_service.dfy ===
/** The user service: lookups by id and by username, registration guarded by a
    username check, partial updates that re-hash a given password, and deletion
    cascading to the user's tasks. The services in the auth module repeat the
    two lookups and the registration line for line; they are modelled here once. */
module UserService {
  import opened Outcomes
  import opened Models
  import opened Rows
  import opened Passwords
  import opened UserSchemas
  import TaskService

  /** The filter `User.id == user_id`. */
  function IdIs(id: int): User -> bool
  {
    (u: User) => u.id == id
  }

  /** The filter `User.username == username`. */
  function UsernameIs(name: string): User -> bool
  {
    (u: User) => u.username == name
  }

  lemma IdFound(s: Store, id: int)
    ensures id in UserIds(s) <==> FindFirst(s.users, IdIs(id)).Some?
  {
    if id in UserIds(s) {
      var u :| u in s.users && u.id == id;
      var j :| 0 <= j < |s.users| && s.users[j] == u;
      assert IdIs(id)(s.users[j]);
    }
  }

  lemma UsernameFound(s: Store, name: string)
    ensures name in Usernames(s) <==> FindFirst(s.users, UsernameIs(name)).Some?
  {
    if name in Usernames(s) {
      var u :| u in s.users && u.username == name;
      var j :| 0 <= j < |s.users| && s.users[j] == u;
      assert UsernameIs(name)(s.users[j]);
    }
  }

  function GetUserById(s: Store, id: int): (r: Result<User>)
    ensures r.Ok? <==> id in UserIds(s)
    ensures r.Ok? ==> r.value in s.users && r.value.id == id
    ensures r.Err? ==> r.error == UserNotFound
  {
    IdFound(s, id);
    match FindFirst(s.users, IdIs(id))
    case None => Err(UserNotFound)
    case Some(i) => Ok(s.users[i])
  }

  function GetUserByUsername(s: Store, name: string): (r: Result<User>)
    ensures r.Ok? <==> name in Usernames(s)
    ensures r.Ok? ==> r.value in s.users && r.value.username == name
    ensures r.Err? ==> r.error == UserNotFound
  {
    UsernameFound(s, name);
    match FindFirst(s.users, UsernameIs(name))
    case None => Err(UserNotFound)
    case Some(i) => Ok(s.users[i])
  }

  /** Under the key and username constraints each lookup finds exactly the row
      holding the key: every stored user is what both lookups return for it. */
  lemma LookupsFindTheRow(s: Store, u: User)
    requires KeysUnique(s) && UsernamesUnique(s)
    requires u in s.users
    ensures GetUserById(s, u.id) == Ok(u)
    ensures GetUserByUsername(s, u.username) == Ok(u)
  {
    var j :| 0 <= j < |s.users| && s.users[j] == u;
    IdFound(s, u.id);
    UsernameFound(s, u.username);
    var i := FindFirst(s.users, IdIs(u.id)).value;
    var k := FindFirst(s.users, UsernameIs(u.username)).value;
    assert IdIs(u.id)(s.users[j]) && UsernameIs(u.username)(s.users[j]);
    assert i == j && k == j;
  }

  /** The row `create_user` inserts: the given names, and the hash of the password
      in the password column. A username already present is refused first. */
  function CreateUser(h: Hasher, s: Store, data: UserCreate, newId: int): (r: Result<(Store, User)>)
    requires FreshUserId(s, newId)
    ensures r.Err? <==> data.username in Usernames(s)
    ensures r.Err? ==> r.error == UsernameTaken
    ensures r.Ok? ==> r.value.1 == User(newId, data.firstName, data.lastName, data.username, h.hash(data.password))
    ensures r.Ok? ==> r.value.0.tasks == s.tasks
    ensures r.Ok? ==> |r.value.0.users| == |s.users| + 1 && r.value.0.users[..|s.users|] == s.users
                      && r.value.0.users[|s.users|] == r.value.1
  {
    if GetUserByUsername(s, data.username).Ok? then Err(UsernameTaken)
    else
      var u := User(newId, data.firstName, data.lastName, data.username, h.hash(data.password));
      Ok((s.(users := s.users + [u]), u))
  }

  /** A created user is what both lookups then return. */
  lemma CreateThenLookup(h: Hasher, s: Store, data: UserCreate, newId: int)
    requires FreshUserId(s, newId)
    requires CreateUser(h, s, data, newId).Ok?
    ensures var (s', u) := CreateUser(h, s, data, newId).value;
            GetUserById(s', newId) == Ok(u) && GetUserByUsername(s', data.username) == Ok(u)
  {
    var (s', u) := CreateUser(h, s, data, newId).value;
    forall j | 0 <= j < |s.users|
      ensures s'.users[j].id != newId && s'.users[j].username != data.username
    {
      assert s.users[j] in s.users;
    }
    assert IdIs(newId)(s'.users[|s.users|]);
    assert UsernameIs(data.username)(s'.users[|s.users|]);
  }

  /** Registering a username twice is refused the second time, whatever the other fields. */
  lemma CreateTwiceRefused(h: Hasher, s: Store, data: UserCreate, newId: int, again: UserCreate, nextId: int)
    requires FreshUserId(s, newId)
    requires CreateUser(h, s, data, newId).Ok?
    requires again.username == data.username
    requires FreshUserId(CreateUser(h, s, data, newId).value.0, nextId)
    ensures CreateUser(h, CreateUser(h, s, data, newId).value.0, again, nextId) == Err(UsernameTaken)
  {
    var (s', u) := CreateUser(h, s, data, newId).value;
    assert u in s'.users;
  }

  lemma CreateUserPreservesValid(h: Hasher, s: Store, data: UserCreate, newId: int)
    requires Valid(s) && FreshUserId(s, newId)
    requires CreateUser(h, s, data, newId).Ok?
    ensures Valid(CreateUser(h, s, data, newId).value.0)
  {
    var (s', u) := CreateUser(h, s, data, newId).value;
    forall i, j | 0 <= i < j < |s'.users|
      ensures s'.users[i].id != s'.users[j].id && s'.users[i].username != s'.users[j].username
    {
      if j == |s.users| {
        assert s.users[i] in s.users;
      }
    }
    assert UserIds(s) <= UserIds(s') by {
      forall x | x in UserIds(s) ensures x in UserIds(s') {
        var v :| v in s.users && v.id == x;
        assert v in s'.users;
      }
    }
  }

  /** The value the password column receives: `if k == 'password' and v:` hashes a
      non-empty string; None and the empty string are written as given. */
  function PasswordWrite(h: Hasher, p: Patch<Option<string>>): (w: Patch<Option<string>>)
    ensures w.Unset? <==> p.Unset?
    ensures p.Set? && p.value.Some? && p.value.value != "" ==> w == Set(Some(h.hash(p.value.value)))
    ensures p.Set? && (p.value.None? || p.value.value == "") ==> w == p
  {
    match p
    case Set(Some(v)) => if v != "" then Set(Some(h.hash(v))) else p
    case _ => p
  }

  /** `update_user`: look the row up (404 if absent), assign every field the dump
      carries, then commit. The commit is refused when it writes null into
      `first_name`, `username` or `password`, in column order. */
  function UpdateUser(h: Hasher, s: Store, id: int, upd: UserUpdate): (r: Result<(Store, User)>)
    ensures id !in UserIds(s) ==> r == Err(UserNotFound)
    ensures id in UserIds(s) ==>
              (r.Err? <==> upd.firstName == Set(None) || upd.username == Set(None) || upd.password == Set(None))
    ensures id in UserIds(s) && upd.firstName == Set(None) ==> r == Err(NullColumn("first_name"))
    ensures id in UserIds(s) && upd.firstName != Set(None) && upd.username == Set(None) ==>
              r == Err(NullColumn("username"))
    ensures id in UserIds(s) && upd.firstName != Set(None) && upd.username != Set(None) && upd.password == Set(None) ==>
              r == Err(NullColumn("password"))
    ensures r.Ok? ==>
              var (s', u') := r.value;
              var u := GetUserById(s, id).value;
              && u'.id == id
              && u'.firstName == (if upd.firstName.Set? then upd.firstName.value.value else u.firstName)
              && u'.lastName == (if upd.lastName.Set? then upd.lastName.value else u.lastName)
              && u'.username == (if upd.username.Set? then upd.username.value.value else u.username)
              && u'.password == (if upd.password.Set? then PasswordWrite(h, upd.password).value.value else u.password)
              && s'.tasks == s.tasks
              && |s'.users| == |s.users|
              && u' in s'.users
    ensures r.Ok? ==>
              forall j :: 0 <= j < |s.users| && s.users[j].id != id ==> r.value.0.users[j] == s.users[j]
  {
    IdFound(s, id);
    match FindFirst(s.users, IdIs(id))
    case None => Err(UserNotFound)
    case Some(i) =>
      var u := s.users[i];
      var firstName := AssignNonNull(upd.firstName, u.firstName);
      var username := AssignNonNull(upd.username, u.username);
      var password := AssignNonNull(PasswordWrite(h, upd.password), u.password);
      if firstName.None? then Err(NullColumn("first_name"))
      else if username.None? then Err(NullColumn("username"))
      else if password.None? then Err(NullColumn("password"))
      else
        var u' := u.(firstName := firstName.value, lastName := Apply(upd.lastName, u.lastName),
                     username := username.value, password := password.value);
        assert s.users[i := u'][i] == u';
        Ok((s.(users := s.users[i := u']), u'))
  }

  /** Another row than user `id` already holds `name`. */
  predicate HeldByOther(s: Store, id: int, name: string)
  {
    exists v :: v in s.users && v.id != id && v.username == name
  }

  /** Two user tables holding the same ids row for row have the same id set. */
  lemma SameIdsRowForRow(s: Store, s': Store)
    requires |s'.users| == |s.users|
    requires forall j :: 0 <= j < |s.users| ==> s'.users[j].id == s.users[j].id
    ensures UserIds(s') == UserIds(s)
  {
    forall x ensures x in UserIds(s') <==> x in UserIds(s) {
      if x in UserIds(s') {
        var v :| v in s'.users && v.id == x;
        var j :| 0 <= j < |s'.users| && s'.users[j] == v;
        assert s.users[j] in s.users;
      }
      if x in UserIds(s) {
        var v :| v in s.users && v.id == x;
        var j :| 0 <= j < |s.users| && s.users[j] == v;
        assert s'.users[j] in s'.users;
      }
    }
  }

  /** A successful update replaces the first row with that id and nothing else. */
  lemma UpdateUserReplacesRow(h: Hasher, s: Store, id: int, upd: UserUpdate)
    requires UpdateUser(h, s, id, upd).Ok?
    ensures FindFirst(s.users, IdIs(id)).Some?
    ensures var i := FindFirst(s.users, IdIs(id)).value;
            var (s', u') := UpdateUser(h, s, id, upd).value;
            s' == s.(users := s.users[i := u']) && u'.id == s.users[i].id
  {
    IdFound(s, id);
  }

  /** `update_user` checks no username: the constraints hold afterwards when the
      username it writes is not held by another row. */
  lemma UpdateUserPreservesValid(h: Hasher, s: Store, id: int, upd: UserUpdate)
    requires Valid(s)
    requires UpdateUser(h, s, id, upd).Ok?
    requires !HeldByOther(s, id, UpdateUser(h, s, id, upd).value.1.username)
    ensures Valid(UpdateUser(h, s, id, upd).value.0)
  {
    UpdateUserReplacesRow(h, s, id, upd);
    var i := FindFirst(s.users, IdIs(id)).value;
    var (s', u') := UpdateUser(h, s, id, upd).value;
    assert forall j :: 0 <= j < |s.users| ==> s'.users[j].id == s.users[j].id;
    SameIdsRowForRow(s, s');
    var userId := (u: User) => u.id;
    var username := (u: User) => u.username;
    assert DistinctKeys(s.users, userId) && DistinctKeys(s.users, username);
    forall j | 0 <= j < |s.users| && j != i
      ensures userId(s.users[j]) != userId(u') && username(s.users[j]) != username(u')
    {
      assert s.users[j] in s.users;
    }
    UpdateAtKeepsDistinct(s.users, i, u', userId);
    UpdateAtKeepsDistinct(s.users, i, u', username);
    assert DistinctKeys(s'.users, userId) && DistinctKeys(s'.users, username);
  }

  /** Without that hypothesis the constraint breaks: renaming one user to another
      user's name is accepted and leaves two rows with the same username. */
  lemma UpdateUserMayDuplicateUsername(h: Hasher)
    ensures var s := Store([User(1, "Ann", None, "ann", "x"), User(2, "Bob", None, "bob", "y")], []);
            var upd := UserUpdate(Set(Some("Bob")), Set(None), Set(Some("ann")), Unset);
            && Valid(s)
            && UpdateUser(h, s, 2, upd).Ok?
            && !UsernamesUnique(UpdateUser(h, s, 2, upd).value.0)
  {
    var s := Store([User(1, "Ann", None, "ann", "x"), User(2, "Bob", None, "bob", "y")], []);
    var upd := UserUpdate(Set(Some("Bob")), Set(None), Set(Some("ann")), Unset);
    assert FindFirst(s.users, IdIs(2)) == Some(1);
    var s' := UpdateUser(h, s, 2, upd).value.0;
    assert s'.users[0].username == s'.users[1].username;
  }

  /** The update schema accepts a null `first_name` or `username`, which the
      NOT NULL columns then refuse at commit. */
  lemma SchemaAdmitsNullName(h: Hasher, s: Store, id: int, lastName: Option<string>, username: Option<string>)
    requires id in UserIds(s)
    ensures var p := map["first_name" := Payloads.JNull, "last_name" := Payloads.OptJson(lastName),
                         "username" := Payloads.OptJson(username)];
            && ParseUserUpdate(p) == Ok(UserUpdate(Set(None), Set(lastName), Set(username), Unset))
            && UpdateUser(h, s, id, ParseUserUpdate(p).value) == Err(NullColumn("first_name"))
  {
    var p := map["first_name" := Payloads.JNull, "last_name" := Payloads.OptJson(lastName),
                 "username" := Payloads.OptJson(username)];
    var upd := UserUpdate(Set(None), Set(lastName), Set(username), Unset);
    assert Admissible(upd);
    UserUpdateRoundTrip(upd);
    assert DumpUserUpdate(upd) == p;
  }

  /** The cascade `all, delete-orphan` and `ondelete='CASCADE'`: the user's tasks go with it. */
  function NotOwnedBy(id: int): Task -> bool
  {
    (t: Task) => t.userId != id
  }

  function DeleteUser(s: Store, id: int): (r: Result<Store>)
    ensures r.Err? <==> id !in UserIds(s)
    ensures r.Err? ==> r.error == UserNotFound
    ensures r.Ok? ==> multiset(r.value.users) == multiset(s.users) - multiset{GetUserById(s, id).value}
    ensures r.Ok? ==> forall t :: t in r.value.tasks <==> t in s.tasks && t.userId != id
  {
    IdFound(s, id);
    match FindFirst(s.users, IdIs(id))
    case None => Err(UserNotFound)
    case Some(i) =>
      var tasks := Where(s.tasks, NotOwnedBy(id));
      assert forall t :: t in tasks <==> multiset(tasks)[t] > 0;
      Ok(Store(RemoveAt(s.users, i), tasks))
  }

  /** Removing the row at `i` from a table with distinct ids removes exactly its id. */
  lemma RemoveUserIds(users: seq<User>, i: nat)
    requires i < |users|
    requires forall a, b :: 0 <= a < b < |users| ==> users[a].id != users[b].id
    ensures (set u | u in RemoveAt(users, i) :: u.id) == (set u | u in users :: u.id) - {users[i].id}
  {
    var left := RemoveAt(users, i);
    var before := set u | u in users :: u.id;
    var after := set u | u in left :: u.id;
    forall x | x in after ensures x in before && x != users[i].id {
      var v :| v in left && v.id == x;
      RemoveAtMembers(users, i, v);
      var j :| 0 <= j < |users| && j != i && users[j] == v;
      assert j < i ==> users[j].id != users[i].id;
      assert i < j ==> users[i].id != users[j].id;
    }
    forall x | x in before && x != users[i].id ensures x in after {
      var v :| v in users && v.id == x;
      var j :| 0 <= j < |users| && users[j] == v;
      RemoveAtMembers(users, i, v);
    }
  }

  /** The ids left after a delete: all but the deleted one. */
  lemma DeleteUserIds(s: Store, id: int)
    requires KeysUnique(s)
    requires id in UserIds(s)
    ensures UserIds(DeleteUser(s, id).value) == UserIds(s) - {id}
  {
    IdFound(s, id);
    var i := FindFirst(s.users, IdIs(id)).value;
    assert DeleteUser(s, id).value.users == RemoveAt(s.users, i);
    RemoveUserIds(s.users, i);
  }

  /** The key and username constraints survive a delete. */
  lemma DeleteUserKeepsKeys(s: Store, id: int)
    requires KeysUnique(s) && UsernamesUnique(s)
    requires id in UserIds(s)
    ensures KeysUnique(DeleteUser(s, id).value) && UsernamesUnique(DeleteUser(s, id).value)
  {
    IdFound(s, id);
    var i := FindFirst(s.users, IdIs(id)).value;
    var s' := DeleteUser(s, id).value;
    assert s'.users == RemoveAt(s.users, i);
    var userId := (u: User) => u.id;
    var username := (u: User) => u.username;
    var taskId := (t: Task) => t.id;
    assert DistinctKeys(s.users, userId) && DistinctKeys(s.users, username) && DistinctKeys(s.tasks, taskId);
    RemoveAtKeepsDistinct(s.users, i, userId);
    RemoveAtKeepsDistinct(s.users, i, username);
    WhereKeepsDistinct(s.tasks, NotOwnedBy(id), taskId);
    assert DistinctKeys(s'.users, userId) && DistinctKeys(s'.users, username) && DistinctKeys(s'.tasks, taskId);
  }

  /** The constraints hold after a delete; in particular the cascade leaves no
      task pointing at the deleted user. */
  lemma DeleteUserPreservesValid(s: Store, id: int)
    requires Valid(s)
    requires id in UserIds(s)
    ensures Valid(DeleteUser(s, id).value)
    ensures UserIds(DeleteUser(s, id).value) == UserIds(s) - {id}
  {
    var s' := DeleteUser(s, id).value;
    DeleteUserKeepsKeys(s, id);
    DeleteUserIds(s, id);
    forall t | t in s'.tasks ensures t.userId in UserIds(s') {
      assert t in s.tasks && t.userId != id;
    }
  }

  /** After a user is deleted nothing of theirs is left: the id reads as missing,
      every task id reads as not found for them, and their listing is empty under
      any status argument the database accepts. */
  lemma DeleteUserForgetsEverything(s: Store, id: int, taskId: int, status: Option<string>)
    requires Valid(s)
    requires id in UserIds(s)
    ensures GetUserById(DeleteUser(s, id).value, id) == Err(UserNotFound)
    ensures TaskService.GetTaskById(DeleteUser(s, id).value, taskId, id) == Err(TaskNotFound)
    ensures TaskService.StatusAccepted(status) ==> TaskService.GetUserTasks(DeleteUser(s, id).value, id, status) == Ok([])
  {
    DeleteUserPreservesValid(s, id);
    var s' := DeleteUser(s, id).value;
    if TaskService.StatusAccepted(status) {
      var r := TaskService.GetUserTasks(s', id, status).value;
      assert multiset(r) == multiset{};
    }
  }
}
